=== FILE: README.md ===
# hashline: hash-anchored line editing, modelled in Dafny

This project models the editing engine of the hashfile MCP server. The server
shows a file to a client as a *tagged view*: one record `n:hh|text` per line,
where `hh` is a two-hex-digit FNV-1a hash of the line without its trailing
whitespace. The footer carries the line count and a six-hex-digit digest of
the whole file. The client edits by naming lines with *anchors* (`n:hh`).
The server accepts an edit only if the digest it sent still matches the
file. It resolves every anchor against the unchanged line list, at the named
position if that line still carries the hash, and otherwise at the unique
line that does. It then applies Replace, Delete, InsertBefore and
InsertAfter from the highest start line down.

Modules, in dependency order:

- `Wrappers`: `Option`, `Result`, and `MapAll`, which models a loop of `?` calls.
- `Strings`: Rust's `trim_end` (full Unicode White_Space), `lines()`, `split(':')` and `join`.
- `Numbers`: decimal formatting, `parse::<usize>()`, and `{:0Nx}` hex formatting.
- `Fnv`: the UTF-8 bytes of a string and the 64-bit FNV-1a hash of the `fnv` crate, on `bv64`.
- `Errors`: every failure of the engine and the two tools, with its message text.
- `Hashline`: `hash_line`, `compute_file_hash`, `tag_content` (with a reader for the tagged view), `LineAnchor::from_str`, and `resolve_anchor`.
- `StableSort`: the stable sort by descending start that `sort_by` performs.
- `Applier`: `apply_operations`, split into resolution, per-operation splicing, the batch loop, and the final join.
- `Tools`: `read_text_file` and `edit_text_file` with the file system as parameters. A read is the `Result` of `fs::read_to_string`. A failing write is an optional error message. The edit outcome records the text that would be written.
- `Scenarios`: worked cases on a three-line file. Included are the unit test of `apply_operations`, a swapped submission order, and overlapping ranges.

An index past the end of the line list makes `Vec::drain` or `Vec::insert`
panic. The model represents this as the failure `Panic`. At the tool level it
becomes a `Panicked` reply, which is neither a result text nor an "Error: "
text.

Three behaviours of the code are easy to miss. The model states each of them
as the code has it:

- Empty batch. `apply_operations` with no operations does not always return
  its input. It rebuilds the text from `lines()` (src/hashline.rs:108 and
  180-183), so:
  - `"\r\n"` endings come back as `"\n"` (`Scenarios.EmptyBatchNormalisesCrLf`);
  - a final blank line is dropped, so `"a\n\n"` becomes `"a\n"`
    (`Applier.EmptyBatchDropsFinalBlankLine`, `Scenarios.EmptyBatchOnBlankLine`).

  `Applier.EmptyBatchRoundTrip` proves the round trip for all content that
  has no `"\r\n"` and does not end in a blank line. A carriage return that
  does not end a line survives (`Scenarios.EmptyBatchKeepsBareCr`).
- Overlapping ranges. Anchors are resolved against the original lines. The
  operations are then applied from the highest start down
  (src/hashline.rs:110-129). Overlap is not detected, and the lower range
  is applied to the list the higher one has already shortened. Two things
  can then happen:
  - the lower range reaches past the end and `Vec::drain` panics
    (`Scenarios.OverlappingDeletesPanic`);
  - the call succeeds but removes a line no operation named. Deleting lines
    1–2 together with line 2 of a three-line file also deletes line 3, and
    writes back a lone "\n" (`Scenarios.OverlappingDeletesLoseLine`).
  Non-overlapping ranges never panic, and each operation finds the original
  lines it names (`Applier.DisjointBatchApplies`).
- Digest. The schema text of the `file_hash` parameter (src/tools.rs:20)
  calls it a SHA-256 hash. The code compares it with the six-hex-digit FNV
  digest from `compute_file_hash` (src/tools.rs:93-95), and so does the
  model.

## Model

| member | source | states |
|---|---|---|
| Strings.TrimEnd | src/hashline.rs:7 | the result is a prefix of the input, everything cut off is whitespace, and the result does not end in whitespace |
| Strings.TrimEndIgnoresWhitespaceSuffix | src/hashline.rs:7 | appending whitespace of any kind does not change the trimmed text |
| Strings.Lines | src/hashline.rs:108 | no line contains a line feed, and only empty content has no lines |
| Strings.LinesStep | src/hashline.rs:108 | a line feed ends the first line, and one carriage return just before it is removed with it |
| Strings.LinesUnterminated | src/hashline.rs:108 | non-empty text with no line feed is a single line, carriage returns included |
| Strings.LinesOfCrLf | src/hashline.rs:108 | a line ended by "\r\n" comes out without the carriage return |
| Strings.JoinCons | src/hashline.rs:180 | joining a part before a non-empty list puts the separator between it and the join of the rest |
| Strings.JoinSnoc | src/hashline.rs:180 | joining one more part after a non-empty list appends the separator and that part |
| Strings.LinesJoinRoundTrip | src/hashline.rs:180-183 | for content without "\r\n", joining the lines with "\n" and restoring a final "\n" gives back the content |
| Strings.Split | src/hashline.rs:46 | there is at least one part, no part holds the separator, and joining the parts with it gives back the input |
| Strings.SplitInTwo | src/hashline.rs:46-47 | splitting gives exactly two parts if and only if the text has exactly one separator, and then the parts are the text before and after it |
| Strings.IndexOf | src/hashline.rs:46 | finds the first occurrence of a character, and reports none exactly when it does not occur |
| Numbers.NatToString | src/hashline.rs:20 | the decimal form of a number is a non-empty digit string that starts with 0 only for zero, and its value is the number |
| Numbers.ParseUsize | src/hashline.rs:50 | parsing fails with Empty exactly on empty text; it succeeds exactly when the text, after an optional leading '+', is a non-empty run of digits; the value is that of the digits |
| Numbers.ParseFormatted | src/hashline.rs:50 | a formatted number parses back to itself |
| Numbers.HexPadded | src/hashline.rs:11 | zero-padded hex has exactly the requested width and only lower-case hex digits |
| Numbers.HexPaddedValue | src/hashline.rs:33 | zero-padded hex reads back as the number it formats |
| Fnv.EncodeChar | src/hashline.rs:9 | a character becomes the shortest UTF-8 form: one byte below 0x80, two below 0x800, three below 0x10000, four otherwise, with the standard lead and continuation byte ranges; the bytes decode to the character |
| Fnv.Utf8 | src/hashline.rs:9 | every character gives at least one byte, and ASCII text gives exactly one per character; the bytes themselves are fixed by `Fnv.Utf8Char` and `Fnv.Utf8Append` |
| Fnv.Utf8Char | src/hashline.rs:9 | a one-character string is encoded as that character's UTF-8 bytes |
| Fnv.Utf8Ascii | src/hashline.rs:9 | the bytes of ASCII text are its character codes |
| Fnv.Utf8Append | src/hashline.rs:30 | the UTF-8 bytes of a concatenation are the concatenation of the bytes |
| Fnv.AbsorbChunks | src/hashline.rs:8-10 | writing bytes in two chunks leaves the hasher where a single write of the whole would |
| Fnv.Fnv1a | src/hashline.rs:8-10 | a fresh hasher with nothing written finishes at the FNV offset basis, and one byte takes it one step from there |
| Fnv.Fnv1aSnoc | src/hashline.rs:8-10 | the hash of one more byte is one FNV-1a step (xor the byte in, multiply by the prime, wrap at 2^64) on from the hash of the bytes before it |
| Fnv.Fnv1aOfConcat | src/hashline.rs:29-31 | hashing a concatenation continues from the hash of its first part |
| Hashline.HashLine | src/hashline.rs:6-12 | a line hash is exactly two lower-case hex digits |
| Hashline.HashLineValue | src/hashline.rs:6-12 | the two digits read back as the low 8 bits of the FNV-1a hash of the trimmed line's UTF-8 bytes |
| Hashline.HashLineIgnoresTrailingWhitespace | src/hashline.rs:193 | a line and the same line with whitespace appended hash alike |
| Hashline.FileHash | src/hashline.rs:28-34 | the file digest is exactly six lower-case hex digits |
| Hashline.FileHashValue | src/hashline.rs:28-34 | the six digits read back as the low 24 bits of the FNV-1a hash of the untrimmed content |
| Hashline.TagLines | src/hashline.rs:18-21 | the records are empty exactly when there are no lines; otherwise they open with the first digit of the first line number and close with a line feed (`Hashline.TagLinesRoundTrip` recovers every line) |
| Hashline.TagContent | src/hashline.rs:15-23 | the tagged view is empty exactly when the content has no lines; otherwise it starts with the digit 1 and ends with a line feed |
| Hashline.RecordRoundTrip | src/hashline.rs:20 | a record made of a number, a colon, a hash, a bar and a text reads back as that number, hash and text when the hash holds no bar |
| Hashline.TagLinesRoundTrip | src/hashline.rs:18-21 | reading back the records of any lines gives one record per line, in order, numbered consecutively, with the line's hash and text |
| Hashline.TagContentRoundTrip | src/hashline.rs:15-23 | reading back the tagged view gives exactly one record per line of the content; record i holds number i+1, that line's hash and that line's text |
| Hashline.ParseAnchor | src/hashline.rs:45-53 | an anchor without exactly one ':' is refused with the format error; otherwise the number's parse error is passed on, or the anchor holds the parsed number and the text after ':' unchanged |
| Hashline.AnchorRoundTrip | src/hashline.rs:45-53 | "n:hash" with no ':' in the hash reads back as that anchor, whether or not the hash is hex |
| Hashline.MatchingIndices | src/hashline.rs:82-87 | the fuzzy search collects exactly the positions whose hash matches, in increasing order |
| Hashline.MatchCount | src/hashline.rs:82-89 | the number of positions collected equals the number of lines with the hash |
| Hashline.ResolveAnchor | src/hashline.rs:72-105 | a resolved index is in range and carries the anchor's hash. The named position wins whenever it still matches, even if other lines share the hash. Otherwise resolution succeeds exactly when one line has the hash. It fails with not-found when no line has it, and with ambiguous, carrying the count, when two or more do |
| Hashline.RelocatesToUniqueMatch | src/hashline.rs:81-90 | an anchor whose position no longer matches moves to the one line carrying its hash |
| Wrappers.MapAll | src/hashline.rs:118-126 | a loop of `?` calls succeeds exactly when every element succeeds, and then yields the results in order |
| Wrappers.MapAllFailsAtFirst | src/hashline.rs:118-126 | the loop fails with the error of the first element that fails |
| Applier.ResolveOp | src/hashline.rs:119-125 | an operation resolves exactly when its anchor and any end anchor do. The start anchor's error wins over the end anchor's. On success the start is the start anchor's index and the end is the end anchor's, both in range, with type and content kept |
| Applier.ResolveAll | src/hashline.rs:115-126 | the batch resolves exactly when every operation does, and the resolved batch follows the input order |
| Applier.ResolveAllFailsAtFirst | src/hashline.rs:118-126 | resolution fails with the error of the first operation that does not resolve |
| Applier.Drain | src/hashline.rs:142 | draining a range that fits keeps the lines before it and closes the gap with the lines after it; a range past the end panics |
| Applier.InsertLine | src/hashline.rs:146 | inserting at a position up to the length puts the line there and shifts the rest up by one; a position past the end panics |
| Applier.InsertEach | src/hashline.rs:145-147 | inserting lines one by one at consecutive positions puts the whole block at the position, or panics when it is past the end |
| Applier.RemovalCount | src/hashline.rs:134-141 | Replace and Delete remove the lines from the start through the end anchor's line, or the start line alone; an end before the start is the range error |
| Applier.ReplaceLines | src/hashline.rs:142-148 | the Replace arm swaps the range for the new lines when the range fits, and panics otherwise |
| Applier.ReplaceArm | src/hashline.rs:133-149 | the Replace arm splices the content's lines over the range when it fits, panics when it does not, and fails on an inverted range |
| Applier.DeleteArm | src/hashline.rs:150-160 | the Delete arm removes the range when it fits, panics when it does not, and fails on an inverted range |
| Applier.InsertArm | src/hashline.rs:161-176 | the insert arms put the content's lines at the anchored line or just after it, change nothing for empty content, and panic past the end |
| Applier.ApplyOne | src/hashline.rs:131-177 | an end before the start fails on Replace and Delete, and an insertion of nothing changes nothing. Any other operation succeeds exactly when its range fits and then replaces the range with its new lines; an out-of-range index panics |
| Applier.ApplyAll | src/hashline.rs:131-178 | the loop fails only with an inverted range or a panic |
| Applier.Finish | src/hashline.rs:180-184 | content that ended with "\n" yields text ending with "\n"; otherwise the result is the plain join. A join that already ends with "\n" gets no second one |
| Applier.ApplyBatch | src/hashline.rs:129-178 | sorting and applying a resolved batch fails only with the range error or a panic |
| Applier.ApplyOperations | src/hashline.rs:107-185 | a successful edit of content ending with "\n" ends with "\n" |
| Applier.ResolutionFailureAborts | src/hashline.rs:115-126 | an anchor that does not resolve makes the whole call fail with its error, and no operation is applied |
| Applier.BatchInverted | src/hashline.rs:129-137 | a batch holding an inverted range never succeeds |
| Applier.InvertedRangeFails | src/hashline.rs:134-137 | an end anchor that resolves before its start anchor makes the call fail, with the range error or with a panic from an operation applied before it |
| Applier.SingleOperation | src/hashline.rs:133-176 | one resolved operation is applied as one splice at its start: Replace removes end−start+1 lines (1 without an end) and inserts the content's lines; Delete removes them; InsertBefore inserts at the start and InsertAfter one line later |
| Applier.SingleOperationUnresolved | src/hashline.rs:118-126 | one operation whose anchors do not resolve fails with the resolution error |
| Applier.SingleResolved | src/hashline.rs:133-176 | an operation with in-range indices and a forward range cannot panic, and applies as its splice |
| Applier.KeepsLinesBelow | src/hashline.rs:142-175 | an operation leaves every line before its start where it was |
| Applier.ChainedApplies | src/hashline.rs:131-178 | operations each lying wholly below the start of the previous one all apply without failure. When its turn comes, each one finds the original lines at and below every line it touches |
| Applier.DisjointSortedIsChained | src/hashline.rs:129 | sorting a batch of non-overlapping ranges by descending start makes each range lie below the previous one |
| Applier.DisjointBatchFits | src/hashline.rs:129-178 | a batch of in-range, forward, pairwise non-overlapping ranges is sorted and applied without failure, each operation finding the original lines it touches |
| Applier.DisjointBatchApplies | src/hashline.rs:115-178 | a batch whose anchors all resolve to forward, pairwise non-overlapping ranges is applied without failure. In the sorted order each operation finds, at its turn, the original lines at and below every line it touches |
| Applier.OrderIndependence | src/hashline.rs:129 | when the resolved starts are pairwise distinct, any submission order of the same operations gives the same outcome |
| Applier.EmptyBatch | src/hashline.rs:107-185 | an empty batch rejoins the content's lines and restores a final line feed |
| Applier.EmptyBatchRoundTrip | src/hashline.rs:180-183 | an empty batch returns content unchanged when it has no "\r\n" and does not end in a blank line |
| Applier.EmptyBatchDropsFinalBlankLine | src/hashline.rs:180-183 | an empty batch drops a final blank line, so such content does not round-trip |
| StableSort.Insert | src/hashline.rs:129 | inserting into a descending sequence keeps it descending and adds exactly the element |
| StableSort.SortDescending | src/hashline.rs:129 | the sorted batch is descending by start and is a permutation of the input |
| StableSort.SortStable | src/hashline.rs:129 | for every start, the operations with that start keep their input order |
| StableSort.SortForgetsOrder | src/hashline.rs:129 | with distinct starts, every permutation of a batch sorts to the same sequence |
| Tools.ReadTextFileImpl | src/tools.rs:73-85 | a read error is passed on; otherwise the output is the tagged view followed by the footer |
| Tools.FooterShape | src/tools.rs:79-82 | the output is the view, the version line, the count and the digest, and the digest sits just before the final line feed |
| Tools.ReadOutputReports | src/tools.rs:73-85 | the read output splits into a view and a footer. The view parses as one record per line of the content, each holding its line number, hash and text. The footer's count parses as the number of lines and is followed by the content's digest |
| Tools.DigestAtEnd | src/tools.rs:79-82 | the six characters before the final line feed are the content's digest |
| Tools.ParseOpType | src/tools.rs:111-117 | only the four names are accepted, each gives its type, and any other text fails with the invalid-type error |
| Tools.OpTypeRoundTrip | src/tools.rs:112-115 | every type's name maps back to that type |
| Tools.ParseEndAnchor | src/tools.rs:105-109 | a missing end anchor is no end; a present one parses or fails with its parse error |
| Tools.ConvertOp | src/tools.rs:103-124 | the anchor is checked first, then the end anchor, then the type, and the first error wins. A converted operation holds the parsed anchor and end anchor, the named type and the content |
| Tools.ConvertAll | src/tools.rs:102-125 | conversion succeeds exactly when every operation converts, and then keeps the input order |
| Tools.EditTextFileImpl | src/tools.rs:87-131 | a read error or a digest mismatch ends the edit before anything is parsed or written; a matching digest goes on to conversion and application |
| Tools.EditChecked | src/tools.rs:102-130 | a conversion error ends the edit without a write; otherwise the converted operations, in input order, are applied and committed |
| Tools.Commit | src/tools.rs:127-130 | a write happens exactly when application succeeded, and writes its result; success is reported exactly when the write also succeeded |
| Tools.EditWritesOnlyAppliedContent | src/tools.rs:87-131 | something is written exactly when the read succeeded, the digest matched, every operation converted and the batch applied; what is written is the applied text |
| Tools.ConversionFailureAborts | src/tools.rs:102-125 | the first operation that does not convert fails the edit with its error and nothing is written |
| Tools.ReadThenEdit | src/tools.rs:93-100 | the digest copied from a read of the same content passes the check |
| Tools.Respond | src/tools.rs:57-60 | success returns the output text; a panic is a panic, not a text; every other failure becomes "Error: " and its message |
| Tools.ReadTextFile | src/tools.rs:53-61 | reading never panics: the reply is the read output, or "Error: " followed by the I/O message |
| Tools.EditTextFile | src/tools.rs:63-69 | an edit panics only when applying its batch does; a failed read or a stale digest is reported as "Error: " text, and success names the path |
| Tools.ReadReplyFlagsFailure | src/tools.rs:53-61 | a read reply starts with "Error: " exactly when the file could not be read |
| Tools.EditReplyFlagsFailure | src/tools.rs:63-69 | an edit's text reply starts with "Error: " exactly when the edit failed |
| Errors.Message | src/hashline.rs:92-103 | anchor errors start with "Anchor " and the parsed line number and hash, the stale-file error names the path after "File ", the type error ends with the type, and an I/O error is its own message; `Errors.AmbiguousMessageCount` states the match count |
| Errors.AmbiguousMessageCount | src/hashline.rs:98-103 | the ambiguous-anchor text ends with the number of matching lines, as " (k matches found)" |
| Errors.AnchorMessage | src/hashline.rs:92-103 | both anchor errors start with "Anchor " followed by the anchor's number, a colon and its hash |
| Errors.ModifiedMessage | src/tools.rs:96-99 | the stale-file error holds the path right after "File " |
| Errors.OpTypeMessage | src/tools.rs:116 | the type error ends with the type the client sent |
| Scenarios.ResolveExact | src/hashline.rs:74-79 | an anchor naming a line by its number and its own hash resolves to that line |
| Scenarios.ReplaceSecondLine | src/hashline.rs:199-211 | replacing line 2 of a three-line file swaps in the new text and keeps the final line feed |
| Scenarios.DeleteFirstTwoLines | src/hashline.rs:150-160 | a delete from line 1 to line 2 leaves only the third line |
| Scenarios.DeleteBackwards | src/hashline.rs:151-155 | a delete whose end anchor names an earlier line fails with the range error |
| Scenarios.FirstAndThirdInEitherOrder | src/hashline.rs:129 | operations on lines 1 and 3 give the same result in either submission order |
| Scenarios.DeletePastEnd | src/hashline.rs:159 | a delete whose range runs past the end of the list panics |
| Scenarios.OverlappingDeletesPanic | src/hashline.rs:159 | deleting lines 1–3 and line 3 in one batch panics |
| Scenarios.OverlappingDeletesLoseLine | src/hashline.rs:129-184 | deleting lines 1–2 and line 2 of a three-line file in one batch succeeds and writes "\n", losing line 3 |
| Scenarios.MalformedAnchors | src/hashline.rs:46-49 | anchors with no colon or two colons are refused with the format error |
| Scenarios.EmptyBatchOnBlankLine | src/hashline.rs:180-183 | an empty batch turns "a\n\n" into "a\n" |
| Scenarios.EmptyBatchKeepsBareCr | src/hashline.rs:180-183 | an empty batch returns "a\rb\n" and "a\r" unchanged |
| Scenarios.EmptyBatchNormalisesCrLf | src/hashline.rs:107-185 | an empty batch turns "a\r\nb\r\n" into "a\nb\n" |

## Left out

- File system: `fs::read_to_string` and `fs::write` are parameters. A read is a `Result` whose error is the I/O message, and a write failure is an optional message. Races between the read and the write are not modelled.
- `src/roots.rs` (path canonicalisation and allowed roots) and `src/main.rs` (runtime and stdio transport) are not part of this model. Neither is the rmcp tool router or serde/schemars input decoding.
- Panics: an out-of-range `drain` or `insert` ends as `Panic` / `Panicked`. What the runtime does with the unwinding task is not modelled.
- Numbers.ParseUsize: no 64-bit bound, so numbers above 2^64−1 parse here, while Rust reports an overflow error; anchors use unbounded line numbers.
- Concrete FNV values, such as `hash_line("hello") != hash_line("world")` in the unit test at src/hashline.rs:194. `Hashline.HashLineValue` and `Hashline.FileHashValue` state the hash in terms of `Fnv.Fnv1a`, but no literal is evaluated.
- Applier.EmptyBatchRoundTrip: proved only for content without "\r\n" and without a final blank line, because the code does not round-trip those (see above).
- Fnv.Step has no contract of its own: it is the xor-multiply step itself, and `Fnv.Fnv1aSnoc` states how the hash uses it.
- Applier.InvertedRangeFails: states failure with the range error or a panic, not the range error alone, because a higher operation applied earlier may panic first.
- Error texts for I/O failures are whatever message the read or write reported; the model does not build them.

=== FILE: applier.dfy ===
/** `apply_operations`: resolve every anchor of a batch against the original
    lines, order the batch by descending start line, splice each operation into
    the line list, and join the lines back into text. */
module Applier {
  import opened Wrappers
  import opened Strings
  import opened Errors
  import opened Hashline
  import opened StableSort

  datatype OperationType = Replace | InsertAfter | InsertBefore | Delete

  /** `HashlineOperation`: an edit addressed by anchors. */
  datatype HashlineOperation = HashlineOperation(
    opType: OperationType,
    anchor: LineAnchor,
    endAnchor: Option<LineAnchor>,
    content: Option<string>)

  /** An operation whose anchors have become 0-based indices of the original lines. */
  datatype ResolvedOp = ResolvedOp(
    start: nat,
    end: Option<nat>,
    opType: OperationType,
    content: Option<string>)

  // ---------------------------------------------------------------------------
  // Resolution

  /** Resolves the start anchor, then the end anchor if there is one; the first
      anchor that fails decides the error. */
  function ResolveOp(lines: seq<string>, op: HashlineOperation): (r: Result<ResolvedOp, Failure>)
    ensures r.Ok? <==>
      ResolveAnchor(lines, op.anchor).Ok?
      && (op.endAnchor.Some? ==> ResolveAnchor(lines, op.endAnchor.value).Ok?)
    ensures ResolveAnchor(lines, op.anchor).Err? ==> r == Err(ResolveAnchor(lines, op.anchor).error)
    ensures (ResolveAnchor(lines, op.anchor).Ok? && op.endAnchor.Some?
             && ResolveAnchor(lines, op.endAnchor.value).Err?) ==>
              r == Err(ResolveAnchor(lines, op.endAnchor.value).error)
    ensures r.Ok? ==>
      && r.value.start == ResolveAnchor(lines, op.anchor).value
      && r.value.start < |lines|
      && r.value.end.Some? == op.endAnchor.Some?
      && (op.endAnchor.Some? ==> r.value.end == Some(ResolveAnchor(lines, op.endAnchor.value).value))
      && (r.value.end.Some? ==> r.value.end.value < |lines|)
      && r.value.opType == op.opType
      && r.value.content == op.content
  {
    match ResolveAnchor(lines, op.anchor)
    case Err(e) => Err(e)
    case Ok(start) =>
      match op.endAnchor
      case None => Ok(ResolvedOp(start, None, op.opType, op.content))
      case Some(endAnchor) =>
        match ResolveAnchor(lines, endAnchor)
        case Err(e) => Err(e)
        case Ok(end) => Ok(ResolvedOp(start, Some(end), op.opType, op.content))
  }

  /** The resolution loop: every operation in input order against the same
      original lines; the first failure aborts the batch. */
  function ResolveAll(lines: seq<string>, ops: seq<HashlineOperation>): (r: Result<seq<ResolvedOp>, Failure>)
    ensures r.Ok? <==> forall i :: 0 <= i < |ops| ==> ResolveOp(lines, ops[i]).Ok?
    ensures r.Ok? ==>
      |r.value| == |ops| && forall i :: 0 <= i < |ops| ==> ResolveOp(lines, ops[i]) == Ok(r.value[i])
  {
    MapAll(ops, op => ResolveOp(lines, op))
  }

  /** The batch fails with the error of its first operation that does not resolve. */
  lemma ResolveAllFailsAtFirst(lines: seq<string>, ops: seq<HashlineOperation>, k: nat)
    requires k < |ops| && ResolveOp(lines, ops[k]).Err?
    requires forall j :: 0 <= j < k ==> ResolveOp(lines, ops[j]).Ok?
    ensures ResolveAll(lines, ops) == Err(ResolveOp(lines, ops[k]).error)
  {
    MapAllFailsAtFirst(ops, op => ResolveOp(lines, op), k);
  }

  // ---------------------------------------------------------------------------
  // Vec primitives

  /** `Vec::drain` of the positions from `lo` up to but not including `hi`, the
      drained lines discarded: the lines before `lo` stay, the lines from `hi` on
      close the gap; an end past the list panics. */
  function Drain(lines: seq<string>, lo: nat, hi: nat): (r: Result<seq<string>, Failure>)
    requires lo <= hi
    ensures r.Ok? <==> hi <= |lines|
    ensures r.Ok? ==>
      |r.value| == |lines| - (hi - lo) && r.value[..lo] == lines[..lo] && r.value[lo..] == lines[hi..]
    ensures r.Err? ==> r.error == Panic
  {
    if hi <= |lines| then Ok(lines[..lo] + lines[hi..]) else Err(Panic)
  }

  /** `Vec::insert`: `line` lands at position `at` and the lines from `at` on
      move up by one; a position past the end panics. */
  function InsertLine(lines: seq<string>, at: nat, line: string): (r: Result<seq<string>, Failure>)
    ensures r.Ok? <==> at <= |lines|
    ensures r.Ok? ==>
      && |r.value| == |lines| + 1 && r.value[at] == line
      && r.value[..at] == lines[..at] && r.value[at + 1..] == lines[at..]
    ensures r.Err? ==> r.error == Panic
  {
    if at <= |lines| then Ok(lines[..at] + [line] + lines[at..]) else Err(Panic)
  }

  /** Inserting the new lines one at a time, the i-th at position `at + i`:
      all the new lines end up, in order, as one block at `at`. */
  function InsertEach(lines: seq<string>, at: nat, newLines: seq<string>): (r: Result<seq<string>, Failure>)
    ensures |newLines| == 0 ==> r == Ok(lines)
    ensures |newLines| > 0 ==> (r.Ok? <==> at <= |lines|)
    ensures |newLines| > 0 && at <= |lines| ==> r == Ok(lines[..at] + newLines + lines[at..])
    ensures r.Err? ==> r.error == Panic
    decreases |newLines|
  {
    if |newLines| == 0 then Ok(lines)
    else match InsertLine(lines, at, newLines[0])
      case Err(e) => Err(e)
      case Ok(next) =>
        var rest := newLines[1..];
        assert next[..at + 1] == lines[..at] + [newLines[0]];
        assert next[at + 1..] == lines[at..];
        assert newLines == [newLines[0]] + rest;
        assert |next| == |lines| + 1;
        assert next[..at + 1] + rest + next[at + 1..] == lines[..at] + newLines + lines[at..];
        var r := InsertEach(next, at + 1, rest);
        assert |rest| > 0 ==> r == Ok(next[..at + 1] + rest + next[at + 1..]);
        assert |rest| == 0 ==> next == lines[..at] + newLines + lines[at..];
        r
  }

  // ---------------------------------------------------------------------------
  // One operation

  /** The lines an operation's optional content contributes. */
  function NewLines(content: Option<string>): seq<string> {
    match content
    case None => []
    case Some(c) => Lines(c)
  }

  /** A Replace or Delete whose end anchor resolved before its start anchor. */
  predicate Inverted(op: ResolvedOp) {
    (op.opType.Replace? || op.opType.Delete?) && op.end.Some? && op.end.value < op.start
  }

  /** An insertion with nothing to insert. */
  predicate Inert(op: ResolvedOp) {
    (op.opType.InsertAfter? || op.opType.InsertBefore?) && |NewLines(op.content)| == 0
  }

  /** How many lines the operation removes: the inclusive range for Replace and
      Delete (one line without an end anchor), none for insertions. */
  function Removed(op: ResolvedOp): nat
    requires !Inverted(op)
  {
    match op.opType
    case Replace | Delete => if op.end.Some? then op.end.value - op.start + 1 else 1
    case InsertAfter | InsertBefore => 0
  }

  /** Where the operation's block of lines goes: after the anchored line for
      InsertAfter, at it otherwise. */
  function At(op: ResolvedOp): nat {
    if op.opType.InsertAfter? then op.start + 1 else op.start
  }

  /** The lines the operation puts in: none for Delete. */
  function Inserted(op: ResolvedOp): seq<string> {
    if op.opType.Delete? then [] else NewLines(op.content)
  }

  /** The intended effect, as one slice replacement. */
  function Splice(lines: seq<string>, op: ResolvedOp): seq<string>
    requires !Inverted(op) && At(op) + Removed(op) <= |lines|
  {
    lines[..At(op)] + Inserted(op) + lines[At(op) + Removed(op)..]
  }

  /** The number of lines Replace and Delete drain: from the start through the
      end anchor's line, or the start line alone; an end before the start is an
      error. */
  function RemovalCount(op: ResolvedOp): (r: Result<nat, Failure>)
    ensures r.Err? <==> op.end.Some? && op.end.value < op.start
    ensures r.Err? ==> r.error == EndBeforeStart
    ensures r.Ok? && op.end.None? ==> r.value == 1
    ensures r.Ok? && op.end.Some? ==> r.value >= 1 && op.start + r.value == op.end.value + 1
  {
    match op.end
    case None => Ok(1)
    case Some(e) => if e < op.start then Err(EndBeforeStart) else Ok(e - op.start + 1)
  }

  /** The Replace arm: drain `count` lines at `start`, then insert the new
      lines one by one from `start`. */
  function ReplaceLines(lines: seq<string>, start: nat, count: nat, newLines: seq<string>): (r: Result<seq<string>, Failure>)
    ensures r.Ok? <==> start + count <= |lines|
    ensures r.Ok? ==> r.value == lines[..start] + newLines + lines[start + count..]
    ensures r.Err? ==> r.error == Panic
  {
    match Drain(lines, start, start + count)
    case Err(e) => Err(e)
    case Ok(rest) =>
      assert rest[..start] == lines[..start];
      assert rest[start..] == lines[start + count..];
      InsertEach(rest, start, newLines)
  }

  /** What applying `op` to `lines` may give: the splice, a panic when the
      splice does not fit, the inverted-range error, or the lines unchanged for
      an insertion with nothing to insert. */
  predicate SplicesOrFails(lines: seq<string>, op: ResolvedOp, r: Result<seq<string>, Failure>) {
    && (Inverted(op) ==> r == Err(EndBeforeStart))
    && (Inert(op) ==> r == Ok(lines))
    && (!Inverted(op) && !Inert(op) ==> (r.Ok? <==> At(op) + Removed(op) <= |lines|))
    && (!Inverted(op) && !Inert(op) && r.Ok? ==> r.value == Splice(lines, op))
    && (!Inverted(op) && r.Err? ==> r.error == Panic)
  }

  /** The Replace arm. */
  function ReplaceArm(lines: seq<string>, op: ResolvedOp): (r: Result<seq<string>, Failure>)
    requires op.opType.Replace?
    ensures SplicesOrFails(lines, op, r)
  {
    match RemovalCount(op)
    case Err(e) => Err(e)
    case Ok(count) => ReplaceLines(lines, op.start, count, NewLines(op.content))
  }

  /** The Delete arm. */
  function DeleteArm(lines: seq<string>, op: ResolvedOp): (r: Result<seq<string>, Failure>)
    requires op.opType.Delete?
    ensures SplicesOrFails(lines, op, r)
  {
    match RemovalCount(op)
    case Err(e) => Err(e)
    case Ok(count) =>
      var r := Drain(lines, op.start, op.start + count);
      assert r.Ok? ==> r.value == lines[..op.start] + lines[op.start + count..];
      r
  }

  /** The InsertAfter and InsertBefore arms. */
  function InsertArm(lines: seq<string>, op: ResolvedOp): (r: Result<seq<string>, Failure>)
    requires op.opType.InsertAfter? || op.opType.InsertBefore?
    ensures SplicesOrFails(lines, op, r)
  {
    InsertEach(lines, At(op), NewLines(op.content))
  }

  /** One arm of the `match op_type` in the application loop. */
  function ApplyOne(lines: seq<string>, op: ResolvedOp): (r: Result<seq<string>, Failure>)
    ensures Inverted(op) ==> r == Err(EndBeforeStart)
    ensures Inert(op) ==> r == Ok(lines)
    ensures !Inverted(op) && !Inert(op) ==> (r.Ok? <==> At(op) + Removed(op) <= |lines|)
    ensures !Inverted(op) && !Inert(op) && r.Ok? ==> r.value == Splice(lines, op)
    ensures !Inverted(op) && r.Err? ==> r.error == Panic
  {
    match op.opType
    case Replace => ReplaceArm(lines, op)
    case Delete => DeleteArm(lines, op)
    case InsertAfter | InsertBefore => InsertArm(lines, op)
  }

  // ---------------------------------------------------------------------------
  // The batch

  function StartOf(op: ResolvedOp): nat {
    op.start
  }

  /** The application loop: each operation in turn on the lines the previous
      ones left; the first failure ends it. */
  function ApplyAll(lines: seq<string>, ops: seq<ResolvedOp>): (r: Result<seq<string>, Failure>)
    ensures r.Err? ==> r.error == EndBeforeStart || r.error == Panic
    decreases |ops|
  {
    if |ops| == 0 then Ok(lines)
    else match ApplyOne(lines, ops[0])
      case Err(e) => Err(e)
      case Ok(next) => ApplyAll(next, ops[1..])
  }

  /** Joins with "\n" and adds a final "\n" when the original content ended
      with one and the join does not already. */
  function Finish(content: string, lines: seq<string>): (r: string)
    ensures EndsWithNewline(content) ==> EndsWithNewline(r)
    ensures !EndsWithNewline(content) ==> r == Join(lines, "\n")
    ensures EndsWithNewline(content) ==> r == Join(lines, "\n") || r == Join(lines, "\n") + "\n"
    ensures EndsWithNewline(Join(lines, "\n")) ==> r == Join(lines, "\n")
  {
    var joined := Join(lines, "\n");
    if EndsWithNewline(content) && !EndsWithNewline(joined) then joined + "\n" else joined
  }

  /** Sorts the resolved batch by descending start (stably) and applies it. */
  function ApplyBatch(lines: seq<string>, resolved: seq<ResolvedOp>): (r: Result<seq<string>, Failure>)
    ensures r.Err? ==> r.error == EndBeforeStart || r.error == Panic
  {
    ApplyAll(lines, SortDescending(resolved, StartOf))
  }

  /** `apply_operations`. */
  function ApplyOperations(content: string, ops: seq<HashlineOperation>): (r: Result<string, Failure>)
    ensures r.Ok? && EndsWithNewline(content) ==> EndsWithNewline(r.value)
  {
    var lines := Lines(content);
    match ResolveAll(lines, ops)
    case Err(e) => Err(e)
    case Ok(resolved) =>
      match ApplyBatch(lines, resolved)
      case Err(e) => Err(e)
      case Ok(edited) => Ok(Finish(content, edited))
  }

  // ---------------------------------------------------------------------------
  // Properties of the batch

  /** An operation whose anchors do not resolve aborts the whole batch with its
      error, provided every operation before it resolves; nothing is applied. */
  lemma ResolutionFailureAborts(content: string, ops: seq<HashlineOperation>, k: nat)
    requires k < |ops| && ResolveOp(Lines(content), ops[k]).Err?
    requires forall j :: 0 <= j < k ==> ResolveOp(Lines(content), ops[j]).Ok?
    ensures ApplyOperations(content, ops) == Err(ResolveOp(Lines(content), ops[k]).error)
  {
    ResolveAllFailsAtFirst(Lines(content), ops, k);
  }

  /** Once an inverted range is reached the application loop stops. */
  lemma {:induction false} ApplyAllInverted(lines: seq<string>, ops: seq<ResolvedOp>, i: nat)
    requires i < |ops| && Inverted(ops[i])
    ensures ApplyAll(lines, ops).Err?
    decreases |ops|
  {
    if i > 0 && ApplyOne(lines, ops[0]).Ok? {
      assert ops[1..][i - 1] == ops[i];
      ApplyAllInverted(ApplyOne(lines, ops[0]).value, ops[1..], i - 1);
    }
  }

  /** A Replace or Delete whose end anchor lies before its start anchor makes
      the batch fail, wherever it sits in the batch. */
  lemma BatchInverted(lines: seq<string>, resolved: seq<ResolvedOp>, i: nat)
    requires i < |resolved| && Inverted(resolved[i])
    ensures ApplyBatch(lines, resolved).Err?
  {
    var sorted := SortDescending(resolved, StartOf);
    assert resolved[i] in multiset(sorted);
    var j :| 0 <= j < |sorted| && sorted[j] == resolved[i];
    ApplyAllInverted(lines, sorted, j);
  }

  /** Once every anchor resolves, the batch's outcome is the application's. */
  lemma AfterResolution(content: string, ops: seq<HashlineOperation>)
    requires ResolveAll(Lines(content), ops).Ok?
    ensures var b := ApplyBatch(Lines(content), ResolveAll(Lines(content), ops).value);
      && (b.Err? ==> ApplyOperations(content, ops) == Err(b.error))
      && (b.Ok? ==> ApplyOperations(content, ops) == Ok(Finish(content, b.value)))
  {
  }

  lemma InvertedRangeFails(content: string, ops: seq<HashlineOperation>, i: nat)
    requires ResolveAll(Lines(content), ops).Ok?
    requires i < |ops| && Inverted(ResolveAll(Lines(content), ops).value[i])
    ensures ApplyOperations(content, ops).Err?
    ensures ApplyOperations(content, ops).error == EndBeforeStart
         || ApplyOperations(content, ops).error == Panic
  {
    var lines := Lines(content);
    var resolved := ResolveAll(lines, ops).value;
    BatchInverted(lines, resolved, i);
    AfterResolution(content, ops);
  }

  /** A batch of one is that one operation. */
  lemma BatchOfOne(lines: seq<string>, op: ResolvedOp)
    ensures ApplyBatch(lines, [op]) == ApplyOne(lines, op)
  {
    assert SortDescending([op], StartOf) == [op];
    assert ApplyAll(lines, [op]) == ApplyOne(lines, op);
  }

  /** A well-formed operation resolved against `lines` is applied as its
      splice: it never runs past the end. */
  lemma SingleResolved(lines: seq<string>, op: ResolvedOp)
    requires op.start < |lines| && (op.end.Some? ==> op.end.value < |lines|)
    requires !Inverted(op)
    ensures At(op) + Removed(op) <= |lines|
    ensures ApplyBatch(lines, [op]) == Ok(if Inert(op) then lines else Splice(lines, op))
  {
    BatchOfOne(lines, op);
  }

  lemma ResolveOne(lines: seq<string>, op: HashlineOperation)
    requires ResolveOp(lines, op).Ok?
    ensures ResolveAll(lines, [op]) == Ok([ResolveOp(lines, op).value])
  {
    var all := ResolveAll(lines, [op]);
    assert [op][0] == op;
    assert all.Ok?;
    assert all.value == [all.value[0]];
  }

  /** A single operation that does not resolve fails with its resolution error. */
  lemma SingleOperationUnresolved(content: string, op: HashlineOperation)
    requires ResolveOp(Lines(content), op).Err?
    ensures ApplyOperations(content, [op]) == Err(ResolveOp(Lines(content), op).error)
  {
    assert [op][0] == op;
    ResolveAllFailsAtFirst(Lines(content), [op], 0);
  }

  /** A single operation that resolves does exactly its splice on the file's
      lines, or fails when its end anchor lies before its start anchor. */
  lemma SingleOperation(content: string, op: HashlineOperation)
    requires ResolveOp(Lines(content), op).Ok?
    ensures var r := ResolveOp(Lines(content), op).value;
      Inverted(r) ==> ApplyOperations(content, [op]) == Err(EndBeforeStart)
    ensures var r := ResolveOp(Lines(content), op).value;
      !Inverted(r) ==> At(r) + Removed(r) <= |Lines(content)|
    ensures var r := ResolveOp(Lines(content), op).value;
      !Inverted(r) ==>
        ApplyOperations(content, [op])
          == Ok(Finish(content, if Inert(r) then Lines(content) else Splice(Lines(content), r)))
  {
    var lines := Lines(content);
    var r := ResolveOp(lines, op).value;
    assert ResolveAll(lines, [op]) == Ok([r]) by {
      ResolveOne(lines, op);
    }
    if Inverted(r) {
      assert ApplyBatch(lines, [r]) == Err(EndBeforeStart) by {
        BatchOfOne(lines, r);
      }
      AfterResolution(content, [op]);
    } else {
      SingleResolved(lines, r);
      AfterResolution(content, [op]);
    }
  }

  /** The largest original index an operation touches. */
  function Reach(op: ResolvedOp): nat {
    if (op.opType.Replace? || op.opType.Delete?) && op.end.Some? then op.end.value else op.start
  }

  /** No two operations of the batch touch a common line. */
  predicate Disjoint(ops: seq<ResolvedOp>) {
    forall i, j :: 0 <= i < |ops| && 0 <= j < |ops| && i != j ==>
      Reach(ops[i]) < ops[j].start || Reach(ops[j]) < ops[i].start
  }

  /** Each operation of `ops` stays below the start of the one applied before
      it, the first below `bound`. */
  predicate Chained(ops: seq<ResolvedOp>, bound: nat) {
    && (|ops| > 0 ==> Reach(ops[0]) < bound)
    && forall k :: 0 < k < |ops| ==> Reach(ops[k]) < ops[k - 1].start
  }

  /** Every operation of a chained sequence stays below its bound. */
  lemma {:induction false} ChainedBelowBound(ops: seq<ResolvedOp>, bound: nat)
    requires Chained(ops, bound)
    requires forall k :: 0 <= k < |ops| ==> !Inverted(ops[k])
    ensures forall k :: 0 <= k < |ops| ==> Reach(ops[k]) < bound
    decreases |ops|
  {
    if |ops| > 1 {
      var front := ops[..|ops| - 1];
      assert Chained(front, bound);
      ChainedBelowBound(front, bound);
      assert ops[|ops| - 2] == front[|front| - 1];
    }
  }

  /** When its turn comes, each operation of `ops` finds the original lines at
      and below every line it touches: the operations applied before it have
      not shifted or changed its targets. */
  predicate SeesOriginal(lines: seq<string>, ops: seq<ResolvedOp>) {
    forall k :: 0 <= k < |ops| ==>
      && Reach(ops[k]) < |lines|
      && ApplyAll(lines, ops[..k]).Ok?
      && Reach(ops[k]) < |ApplyAll(lines, ops[..k]).value|
      && ApplyAll(lines, ops[..k]).value[..Reach(ops[k]) + 1] == lines[..Reach(ops[k]) + 1]
  }

  /** An operation leaves the lines before its start where they were. */
  lemma KeepsLinesBelow(lines: seq<string>, op: ResolvedOp)
    requires !Inverted(op) && op.start <= |lines| && ApplyOne(lines, op).Ok?
    ensures op.start <= |ApplyOne(lines, op).value|
    ensures ApplyOne(lines, op).value[..op.start] == lines[..op.start]
  {
    if !Inert(op) {
      var r := ApplyOne(lines, op).value;
      assert r[..op.start] == r[..At(op)][..op.start];
    }
  }

  /** Applying a chained sequence leaves every operation's lines where the
      resolver found them, so none of the Vec calls runs past the end. */
  lemma {:induction false} ChainedApplies(lines: seq<string>, ops: seq<ResolvedOp>, bound: nat)
    requires bound <= |lines| && Chained(ops, bound)
    requires forall k :: 0 <= k < |ops| ==> !Inverted(ops[k])
    ensures ApplyAll(lines, ops).Ok?
    ensures SeesOriginal(lines, ops)
    decreases |ops|
  {
    if |ops| > 0 {
      var op := ops[0];
      var next := ApplyOne(lines, op);
      assert next.Ok?;
      KeepsLinesBelow(lines, op);
      var rest := ops[1..];
      forall k | 0 < k < |rest| ensures Reach(rest[k]) < rest[k - 1].start {
        assert rest[k] == ops[k + 1] && rest[k - 1] == ops[k];
      }
      assert |rest| > 0 ==> rest[0] == ops[1];
      ChainedApplies(next.value, rest, op.start);
      ChainedBelowBound(rest, op.start);
      forall k | 0 <= k < |ops|
        ensures Reach(ops[k]) < |lines|
        ensures ApplyAll(lines, ops[..k]).Ok?
        ensures Reach(ops[k]) < |ApplyAll(lines, ops[..k]).value|
        ensures ApplyAll(lines, ops[..k]).value[..Reach(ops[k]) + 1] == lines[..Reach(ops[k]) + 1]
      {
        if k == 0 {
          assert ops[..k] == [];
        } else {
          SeesOriginalStep(lines, ops, next.value, k);
        }
      }
    }
  }

  /** The k-th operation's view after the first one ran is its view in the rest
      of the sequence, which starts from the lines the first one left. */
  lemma SeesOriginalStep(lines: seq<string>, ops: seq<ResolvedOp>, next: seq<string>, k: nat)
    requires 0 < k < |ops| && !Inverted(ops[0])
    requires ops[0].start <= |lines| && ApplyOne(lines, ops[0]) == Ok(next)
    requires Reach(ops[k]) < ops[0].start
    requires SeesOriginal(next, ops[1..])
    ensures Reach(ops[k]) < |lines|
    ensures ApplyAll(lines, ops[..k]).Ok?
    ensures Reach(ops[k]) < |ApplyAll(lines, ops[..k]).value|
    ensures ApplyAll(lines, ops[..k]).value[..Reach(ops[k]) + 1] == lines[..Reach(ops[k]) + 1]
  {
    var rest := ops[1..];
    var n := Reach(ops[k]) + 1;
    assert ops[..k][0] == ops[0] && ops[..k][1..] == rest[..k - 1];
    assert rest[k - 1] == ops[k];
    assert ApplyAll(lines, ops[..k]) == ApplyAll(next, rest[..k - 1]);
    KeepsLinesBelow(lines, ops[0]);
    assert next[..n] == next[..ops[0].start][..n];
    assert lines[..n] == lines[..ops[0].start][..n];
  }

  /** Well-formed disjoint operations start on distinct lines. */
  lemma DisjointStartsDistinct(resolved: seq<ResolvedOp>)
    requires Disjoint(resolved)
    requires forall i :: 0 <= i < |resolved| ==> !Inverted(resolved[i])
    ensures DistinctKeys(resolved, StartOf)
  {
    forall i, j | 0 <= i < j < |resolved| ensures StartOf(resolved[i]) != StartOf(resolved[j]) {
      assert Reach(resolved[i]) >= resolved[i].start && Reach(resolved[j]) >= resolved[j].start;
    }
  }

  /** Descending order turns a disjoint batch into a chained one. */
  lemma DisjointSortedIsChained(resolved: seq<ResolvedOp>, bound: nat)
    requires Disjoint(resolved)
    requires forall i :: 0 <= i < |resolved| ==> !Inverted(resolved[i]) && Reach(resolved[i]) < bound
    ensures Chained(SortDescending(resolved, StartOf), bound)
  {
    var sorted := SortDescending(resolved, StartOf);
    assert DistinctKeys(sorted, StartOf) by {
      DisjointStartsDistinct(resolved);
      DistinctKeysOfPermutation(resolved, sorted, StartOf);
    }
    if |sorted| > 0 {
      assert Reach(sorted[0]) < bound by {
        assert sorted[0] in multiset(resolved);
      }
    }
    forall k | 0 < k < |sorted| ensures Reach(sorted[k]) < sorted[k - 1].start {
      DisjointNeighbours(resolved, sorted, k);
    }
  }

  lemma DisjointNeighbours(resolved: seq<ResolvedOp>, sorted: seq<ResolvedOp>, k: nat)
    requires Disjoint(resolved)
    requires forall i :: 0 <= i < |resolved| ==> !Inverted(resolved[i])
    requires multiset(sorted) == multiset(resolved)
    requires Descending(sorted, StartOf) && DistinctKeys(sorted, StartOf)
    requires 0 < k < |sorted|
    ensures Reach(sorted[k]) < sorted[k - 1].start
  {
    var p, q := sorted[k - 1], sorted[k];
    assert StartOf(p) > StartOf(q);
    assert p in multiset(resolved) && q in multiset(resolved);
    var a :| 0 <= a < |resolved| && resolved[a] == p;
    var b :| 0 <= b < |resolved| && resolved[b] == q;
    assert Reach(resolved[a]) >= resolved[a].start;
  }

  /** A batch whose resolved operations are well-formed ranges touching no
      common line is applied without error. */
  lemma DisjointBatchApplies(content: string, ops: seq<HashlineOperation>)
    requires ResolveAll(Lines(content), ops).Ok?
    requires forall i :: 0 <= i < |ops| ==> !Inverted(ResolveAll(Lines(content), ops).value[i])
    requires Disjoint(ResolveAll(Lines(content), ops).value)
    ensures ApplyOperations(content, ops).Ok?
    ensures SeesOriginal(Lines(content), SortDescending(ResolveAll(Lines(content), ops).value, StartOf))
  {
    var lines := Lines(content);
    var resolved := ResolveAll(lines, ops).value;
    forall i | 0 <= i < |resolved|
      ensures resolved[i].start < |lines| && (resolved[i].end.Some? ==> resolved[i].end.value < |lines|)
    {
      assert ResolveOp(lines, ops[i]) == Ok(resolved[i]);
    }
    DisjointBatchFits(lines, resolved);
    AfterResolution(content, ops);
  }

  lemma DisjointBatchFits(lines: seq<string>, resolved: seq<ResolvedOp>)
    requires forall i :: 0 <= i < |resolved| ==>
      !Inverted(resolved[i]) && resolved[i].start < |lines|
      && (resolved[i].end.Some? ==> resolved[i].end.value < |lines|)
    requires Disjoint(resolved)
    ensures ApplyBatch(lines, resolved).Ok?
    ensures SeesOriginal(lines, SortDescending(resolved, StartOf))
  {
    var sorted := SortDescending(resolved, StartOf);
    DisjointSortedIsChained(resolved, |lines|);
    forall k | 0 <= k < |sorted| ensures !Inverted(sorted[k]) {
      assert sorted[k] in multiset(resolved);
    }
    ChainedApplies(lines, sorted, |lines|);
  }

  /** When the operations resolve to distinct start lines, the order in which
      they are submitted does not matter. */
  lemma OrderIndependence(content: string, ops1: seq<HashlineOperation>, ops2: seq<HashlineOperation>)
    requires multiset(ops1) == multiset(ops2)
    requires ResolveAll(Lines(content), ops1).Ok?
    requires DistinctKeys(ResolveAll(Lines(content), ops1).value, StartOf)
    ensures ApplyOperations(content, ops1) == ApplyOperations(content, ops2)
  {
    var lines := Lines(content);
    var resolve := op => ResolveOp(lines, op);
    forall i | 0 <= i < |ops2| ensures ResolveOp(lines, ops2[i]).Ok? {
      assert ops2[i] in multiset(ops1);
      var p :| 0 <= p < |ops1| && ops1[p] == ops2[i];
    }
    var r1, r2 := ResolveAll(lines, ops1).value, ResolveAll(lines, ops2).value;
    MapPermutation(ops1, ops2, resolve, r1, r2);
    SortForgetsOrder(r1, r2, StartOf);
  }

  /** Content ending in an empty line, i.e. in two line feeds. */
  predicate EndsWithBlankLine(s: string) {
    |s| >= 2 && s[|s| - 1] == '\n' && s[|s| - 2] == '\n'
  }

  lemma EmptyBatch(content: string)
    ensures ApplyOperations(content, []) == Ok(Finish(content, Lines(content)))
  {
    assert ResolveAll(Lines(content), []) == Ok([]);
    assert SortDescending([], StartOf) == [];
    assert ApplyBatch(Lines(content), []) == Ok(Lines(content));
    AfterResolution(content, []);
  }

  /** An empty batch gives back the content it was given, as long as the
      content has no "\r\n" and does not end in an empty line. */
  lemma EmptyBatchRoundTrip(content: string)
    requires NoCrLf(content) && !EndsWithBlankLine(content)
    ensures ApplyOperations(content, []) == Ok(content)
  {
    EmptyBatch(content);
    LinesJoinRoundTrip(content);
    var joined := Join(Lines(content), "\n");
    if EndsWithNewline(content) {
      assert content == joined + "\n";
      if |joined| > 0 {
        assert joined[|joined| - 1] == content[|content| - 2];
      }
      assert !EndsWithNewline(joined);
      assert Finish(content, Lines(content)) == joined + "\n";
    } else {
      assert content == joined + "";
      assert joined + "" == joined;
      assert Finish(content, Lines(content)) == joined;
    }
  }

  /** An empty batch drops one final empty line: `lines()` yields no line for
      the last terminator and the join then already ends in a line feed. */
  lemma EmptyBatchDropsFinalBlankLine(content: string)
    requires NoCrLf(content) && EndsWithBlankLine(content)
    ensures ApplyOperations(content, []) == Ok(content[..|content| - 1])
  {
    EmptyBatch(content);
    LinesJoinRoundTrip(content);
    var joined := Join(Lines(content), "\n");
    assert content == joined + "\n";
    assert joined[|joined| - 1] == content[|content| - 2];
    assert joined == content[..|content| - 1];
  }
}

=== FILE: errors.dfy ===
/** Every way the engine and its two tools can fail, and the text Rust's
    `Display` gives each one. */
module Errors {
  import opened Numbers
  import opened Strings

  datatype Failure =
    | InvalidAnchorFormat
    | InvalidInteger(kind: IntErrorKind)
    | AnchorNotFound(lineNum: nat, hash: string)
    | AnchorAmbiguous(lineNum: nat, hash: string, matches: nat)
    | EndBeforeStart
      /** A `Vec::drain` or `Vec::insert` index past the end: a panic in Rust,
          not an error value. */
    | Panic
    | Modified(path: string)
    | InvalidOpType(opType: string)
    | Io(message: string)

  function AnchorText(lineNum: nat, hash: string): string {
    NatToString(lineNum) + ":" + hash
  }

  /** "Anchor {n}:{hash}" followed by `rest`. */
  function AnchorMessage(lineNum: nat, hash: string, rest: string): (r: string)
    ensures "Anchor " + AnchorText(lineNum, hash) <= r
  {
    var lead := "Anchor " + AnchorText(lineNum, hash);
    assert (lead + rest)[..|lead|] == lead;
    lead + rest
  }

  /** The stale-digest text, with the path after "File ". */
  function ModifiedMessage(path: string): (r: string)
    ensures |r| >= 5 + |path| && r[5..5 + |path|] == path
  {
    var r := "File " + path + " has been modified since it was last read. Please re-read the file.";
    assert r[5..5 + |path|] == path;
    r
  }

  /** The unknown-type text, ending with the type the client sent. */
  function OpTypeMessage(opType: string): (r: string)
    ensures |r| >= |opType| && r[|r| - |opType|..] == opType
  {
    var lead := "Invalid operation type: ";
    assert (lead + opType)[|lead|..] == opType;
    lead + opType
  }

  /** The `Display` text of each error value (a panic has none): anchor errors
      lead with the parsed line number and hash (so "+02:ab" reads "2:ab"), the others name the path or
      operation type at fault, and an I/O error is the system's own message. */
  function Message(f: Failure): (r: string)
    requires !f.Panic?
    ensures f.AnchorNotFound? || f.AnchorAmbiguous? ==> "Anchor " + AnchorText(f.lineNum, f.hash) <= r
    ensures f.Modified? ==> |r| >= 5 + |f.path| && r[5..5 + |f.path|] == f.path
    ensures f.InvalidOpType? ==> |r| >= |f.opType| && r[|r| - |f.opType|..] == f.opType
    ensures f.Io? ==> r == f.message
  {
    match f
    case InvalidAnchorFormat => "Invalid anchor format. Expected 'line_num:hash'"
    case InvalidInteger(Empty) => "cannot parse integer from empty string"
    case InvalidInteger(InvalidDigit) => "invalid digit found in string"
    case AnchorNotFound(n, h) => AnchorMessage(n, h, " not found")
    case AnchorAmbiguous(n, h, k) =>
      AnchorMessage(n, h, " is ambiguous (" + NatToString(k) + " matches found)")
    case EndBeforeStart => "End anchor is before start anchor"
    case Modified(path) => ModifiedMessage(path)
    case InvalidOpType(t) => OpTypeMessage(t)
    case Io(m) => m
  }

  /** The ambiguous-anchor text closes with the number of matching lines, in
      parentheses, so the count the resolver found reaches the client. */
  lemma AmbiguousMessageCount(lineNum: nat, hash: string, matches: nat)
    ensures var r := Message(AnchorAmbiguous(lineNum, hash, matches));
      var tail := " (" + NatToString(matches) + " matches found)";
      |r| >= |tail| && r[|r| - |tail|..] == tail
  {
    var digits := NatToString(matches);
    var lead := "Anchor " + AnchorText(lineNum, hash);
    ConcatAssoc(" is ambiguous", " (", digits);
    ConcatAssoc(" is ambiguous", " (" + digits, " matches found)");
    assert " is ambiguous (" == " is ambiguous" + " (";
    EndsWith(lead, " is ambiguous", " (" + digits + " matches found)");
  }

  /** The last characters of `front + (mid + tail)` are `tail`. */
  lemma EndsWith(front: string, mid: string, tail: string)
    ensures var r := front + (mid + tail);
      |r| >= |tail| && r[|r| - |tail|..] == tail
  {
    var r := front + (mid + tail);
    assert r[|front| + |mid|..] == tail;
  }
}

=== FILE: fnv.dfy ===
/** The bytes a Rust `&str` exposes through `as_bytes` (UTF-8), and the 64-bit
    FNV-1a hash the `fnv` crate's `FnvHasher` computes over them. */
module Fnv {

  newtype byte = b: int | 0 <= b < 256

  const OffsetBasis: bv64 := 0xcbf2_9ce4_8422_2325
  const Prime: bv64 := 0x100_0000_01b3

  predicate IsContinuation(b: byte) {
    0x80 <= b < 0xC0
  }

  /** The scalar value a 1- to 4-byte UTF-8 sequence denotes. */
  function DecodeScalar(bytes: seq<byte>): int
    requires 1 <= |bytes| <= 4
  {
    match |bytes|
    case 1 => bytes[0] as int
    case 2 => (bytes[0] as int - 0xC0) * 0x40 + (bytes[1] as int - 0x80)
    case 3 => ((bytes[0] as int - 0xE0) * 0x40 + (bytes[1] as int - 0x80)) * 0x40 + (bytes[2] as int - 0x80)
    case 4 =>
      (((bytes[0] as int - 0xF0) * 0x40 + (bytes[1] as int - 0x80)) * 0x40 + (bytes[2] as int - 0x80)) * 0x40
        + (bytes[3] as int - 0x80)
  }

  function Encode2(cp: int): (r: seq<byte>)
    requires 0x80 <= cp < 0x800
    ensures |r| == 2 && 0xC2 <= r[0] < 0xE0 && IsContinuation(r[1])
    ensures DecodeScalar(r) == cp
  {
    var hi, lo := cp / 0x40, cp % 0x40;
    assert cp == hi * 0x40 + lo;
    [(0xC0 + hi) as byte, (0x80 + lo) as byte]
  }

  function Encode3(cp: int): (r: seq<byte>)
    requires 0x800 <= cp < 0x1_0000
    ensures |r| == 3 && 0xE0 <= r[0] < 0xF0 && IsContinuation(r[1]) && IsContinuation(r[2])
    ensures DecodeScalar(r) == cp
  {
    var top, lo := cp / 0x40, cp % 0x40;
    var hi, mid := top / 0x40, top % 0x40;
    assert cp == top * 0x40 + lo;
    assert top == hi * 0x40 + mid;
    [(0xE0 + hi) as byte, (0x80 + mid) as byte, (0x80 + lo) as byte]
  }

  function Encode4(cp: int): (r: seq<byte>)
    requires 0x1_0000 <= cp < 0x11_0000
    ensures |r| == 4 && 0xF0 <= r[0] < 0xF5
    ensures IsContinuation(r[1]) && IsContinuation(r[2]) && IsContinuation(r[3])
    ensures DecodeScalar(r) == cp
  {
    var top, lo := cp / 0x40, cp % 0x40;
    var upper, mid := top / 0x40, top % 0x40;
    var hi, high := upper / 0x40, upper % 0x40;
    assert cp == top * 0x40 + lo;
    assert top == upper * 0x40 + mid;
    assert upper == hi * 0x40 + high;
    [(0xF0 + hi) as byte, (0x80 + high) as byte, (0x80 + mid) as byte, (0x80 + lo) as byte]
  }

  /** UTF-8 encoding of one scalar value: the shortest form, a lead byte
      announcing the length, continuation bytes after it. */
  function EncodeChar(c: char): (r: seq<byte>)
    ensures 1 <= |r| <= 4
    ensures |r| == 1 <==> (c as int) < 0x80
    ensures |r| == 2 <==> 0x80 <= (c as int) < 0x800
    ensures |r| == 3 <==> 0x800 <= (c as int) < 0x1_0000
    ensures |r| == 2 ==> 0xC2 <= r[0] < 0xE0
    ensures |r| == 3 ==> 0xE0 <= r[0] < 0xF0
    ensures |r| == 4 ==> 0xF0 <= r[0] < 0xF5
    ensures forall i :: 1 <= i < |r| ==> IsContinuation(r[i])
    ensures DecodeScalar(r) == c as int
  {
    var cp := c as int;
    if cp < 0x80 then [cp as byte]
    else if cp < 0x800 then Encode2(cp)
    else if cp < 0x1_0000 then Encode3(cp)
    else Encode4(cp)
  }

  /** `str::as_bytes`: each character's encoding in turn, so every character
      gives at least one byte and ASCII text gives exactly one per character. */
  function Utf8(s: string): (r: seq<byte>)
    ensures |r| >= |s|
    ensures (forall i :: 0 <= i < |s| ==> (s[i] as int) < 0x80) ==> |r| == |s|
    decreases |s|
  {
    if |s| == 0 then [] else EncodeChar(s[0]) + Utf8(s[1..])
  }

  /** ASCII text is its own encoding, one byte per character. */
  lemma {:induction false} Utf8Ascii(s: string)
    requires forall i :: 0 <= i < |s| ==> (s[i] as int) < 0x80
    ensures forall i :: 0 <= i < |s| ==> Utf8(s)[i] == s[i] as int as byte
    decreases |s|
  {
    if |s| > 0 {
      Utf8Ascii(s[1..]);
      forall i | 1 <= i < |s| ensures Utf8(s)[i] == s[i] as int as byte {
        assert s[1..][i - 1] == s[i];
      }
    }
  }

  /** One character's bytes are its UTF-8 encoding; with `Utf8Append` this
      fixes the bytes of every string. */
  lemma Utf8Char(c: char)
    ensures Utf8([c]) == EncodeChar(c)
  {
    assert [c][1..] == [];
  }

  lemma {:induction false} Utf8Append(a: string, b: string)
    ensures Utf8(a + b) == Utf8(a) + Utf8(b)
    decreases |a|
  {
    if |a| == 0 {
      assert a + b == b;
    } else {
      assert (a + b)[1..] == a[1..] + b;
      Utf8Append(a[1..], b);
    }
  }

  /** One `FnvHasher::write` step: xor the byte in, multiply, wrap at 2^64. */
  function Step(h: bv64, b: byte): bv64 {
    (h ^ (b as bv64)) * Prime
  }

  /** The hasher state after writing `bytes` starting from state `h`: the bytes
      are taken in order, one step each. */
  function Absorb(h: bv64, bytes: seq<byte>): (r: bv64)
    ensures |bytes| == 0 ==> r == h
    ensures |bytes| == 1 ==> r == Step(h, bytes[0])
    decreases |bytes|
  {
    if |bytes| == 0 then h else Absorb(Step(h, bytes[0]), bytes[1..])
  }

  /** A fresh hasher, one write of `bytes`, then the final state: the offset
      basis for no bytes. */
  function Fnv1a(bytes: seq<byte>): (r: bv64)
    ensures |bytes| == 0 ==> r == OffsetBasis
    ensures |bytes| == 1 ==> r == Step(OffsetBasis, bytes[0])
  {
    Absorb(OffsetBasis, bytes)
  }

  /** Writing in two chunks leaves the hasher where one write of the whole would. */
  lemma {:induction false} AbsorbChunks(h: bv64, a: seq<byte>, b: seq<byte>)
    ensures Absorb(h, a + b) == Absorb(Absorb(h, a), b)
    decreases |a|
  {
    if |a| == 0 {
      assert a + b == b;
    } else {
      assert (a + b)[1..] == a[1..] + b;
      AbsorbChunks(Step(h, a[0]), a[1..], b);
    }
  }

  /** The hash of one more byte is one step on from the hash of the bytes
      before it. */
  lemma Fnv1aSnoc(bytes: seq<byte>, b: byte)
    ensures Fnv1a(bytes + [b]) == Step(Fnv1a(bytes), b)
  {
    AbsorbChunks(OffsetBasis, bytes, [b]);
  }

  /** The digest of a string is the digest of its parts written one after the other. */
  lemma Fnv1aOfConcat(a: string, b: string)
    ensures Fnv1a(Utf8(a + b)) == Absorb(Fnv1a(Utf8(a)), Utf8(b))
  {
    Utf8Append(a, b);
    AbsorbChunks(OffsetBasis, Utf8(a), Utf8(b));
  }
}

=== FILE: hashline.dfy ===
/** Line hashes, the file digest, the tagged view of a file, anchors and their
    resolution against a file's current lines. */
module Hashline {
  import opened Wrappers
  import opened Strings
  import opened Numbers
  import opened Fnv
  import opened Errors

  /** `hash_line`: two lower-case hex digits, the low byte of the FNV-1a hash of
      the line with its trailing whitespace removed. */
  function HashLine(content: string): (r: string)
    ensures |r| == 2 && AllLowerHex(r)
  {
    HexPadded(Fnv1a(Utf8(TrimEnd(content))) as int % 0x100, 2)
  }

  /** The two hex digits of a line hash are the low byte of the FNV-1a hash. */
  lemma HashLineValue(content: string)
    ensures HexValue(HashLine(content)) == Fnv1a(Utf8(TrimEnd(content))) as int % 0x100
  {
    HexPaddedValue(Fnv1a(Utf8(TrimEnd(content))) as int % 0x100, 2);
  }

  /** Trailing whitespace never changes a line's hash. */
  lemma HashLineIgnoresTrailingWhitespace(line: string, ws: string)
    requires AllWhitespace(ws)
    ensures HashLine(line + ws) == HashLine(line)
  {
    TrimEndIgnoresWhitespaceSuffix(line, ws);
  }

  /** `compute_file_hash`: six lower-case hex digits, the low 24 bits of the
      FNV-1a hash of the whole, untrimmed content. */
  function FileHash(content: string): (r: string)
    ensures |r| == 6 && AllLowerHex(r)
  {
    assert Pow16(6) == 0x100_0000;
    HexPadded(Fnv1a(Utf8(content)) as int % 0x100_0000, 6)
  }

  /** The six hex digits of the digest are the low 24 bits of the FNV-1a hash. */
  lemma FileHashValue(content: string)
    ensures HexValue(FileHash(content)) == Fnv1a(Utf8(content)) as int % 0x100_0000
  {
    assert Pow16(6) == 0x100_0000;
    HexPaddedValue(Fnv1a(Utf8(content)) as int % 0x100_0000, 6);
  }

  // ---------------------------------------------------------------------------
  // Tagging

  /** One record of the tagged view: `"{n}:{hash}|{line}\n"`. */
  function Record(lineNum: nat, line: string): string {
    NatToString(lineNum) + ":" + HashLine(line) + "|" + line + "\n"
  }

  /** The records of `lines`, numbered from `first`: empty exactly when there
      are no lines, otherwise opening with the first number and closing with a
      line feed. */
  function TagLines(lines: seq<string>, first: nat): (r: string)
    ensures |r| == 0 <==> |lines| == 0
    ensures |lines| > 0 ==> r[0] == NatToString(first)[0] && r[|r| - 1] == '\n'
    decreases |lines|
  {
    if |lines| == 0 then ""
    else
      var rest := TagLines(lines[1..], first + 1);
      RecordEnds(first, lines[0]);
      Record(first, lines[0]) + rest
  }

  lemma RecordEnds(lineNum: nat, line: string)
    ensures var rec := Record(lineNum, line); |rec| > 0 && rec[0] == NatToString(lineNum)[0] && rec[|rec| - 1] == '\n'
  {
  }

  /** `tag_content`: one record per line of `content`, numbered from 1. */
  function TagContent(content: string): (r: string)
    ensures |r| == 0 <==> |Lines(content)| == 0
    ensures |r| > 0 ==> r[0] == '1' && r[|r| - 1] == '\n'
  {
    assert NatToString(1) == "1";
    TagLines(Lines(content), 1)
  }

  /** What a reader of the tagged view recovers from one record. */
  datatype TaggedLine = TaggedLine(lineNum: nat, hash: string, text: string)

  /** Reads `"{n}:{hash}|{text}"`: number up to the first ':', hash up to the
      next '|', the rest is the text. */
  function ParseRecord(rec: string): Option<TaggedLine> {
    match IndexOf(rec, ':')
    case None => None
    case Some(i) =>
      var after := rec[i + 1..];
      match IndexOf(after, '|')
      case None => None
      case Some(j) =>
        match ParseUsize(rec[..i])
        case Err(_) => None
        case Ok(n) => Some(TaggedLine(n, after[..j], after[j + 1..]))
  }

  /** Reads a whole tagged view, one record per "\n"-terminated piece. */
  function ParseTagged(text: string): Option<seq<TaggedLine>>
    decreases |text|
  {
    if |text| == 0 then Some([])
    else match IndexOf(text, '\n')
      case None => None
      case Some(i) =>
        match ParseRecord(text[..i])
        case None => None
        case Some(rec) =>
          match ParseTagged(text[i + 1..])
          case None => None
          case Some(rest) => Some([rec] + rest)
  }

  lemma NoSeparatorInNumeral(n: nat)
    ensures ':' !in NatToString(n) && '|' !in NatToString(n) && '\n' !in NatToString(n)
  {
    var s := NatToString(n);
    forall k | 0 <= k < |s| ensures s[k] != ':' && s[k] != '|' && s[k] != '\n' {
      assert IsDigit(s[k]);
    }
  }

  lemma NoSeparatorInHash(line: string)
    ensures ':' !in HashLine(line) && '|' !in HashLine(line) && '\n' !in HashLine(line)
  {
    var h := HashLine(line);
    forall k | 0 <= k < |h| ensures h[k] != ':' && h[k] != '|' && h[k] != '\n' {
      assert IsLowerHex(h[k]);
    }
  }

  /** A record body reads back as its number, hash and text whenever the hash
      holds no '|'. */
  lemma RecordRoundTrip(n: nat, hash: string, text: string)
    requires '|' !in hash
    ensures ParseRecord(NatToString(n) + ":" + hash + "|" + text) == Some(TaggedLine(n, hash, text))
  {
    var num := NatToString(n);
    NoSeparatorInNumeral(n);
    var after := hash + "|" + text;
    assert num + ":" + hash + "|" + text == num + [':'] + after;
    IndexOfFirst(num, ':', after);
    assert after == hash + ['|'] + text;
    IndexOfFirst(hash, '|', text);
    ParseFormatted(n);
  }

  /** The records of `lines` numbered from `first`, as a reader recovers them,
      for a given line hash. */
  function Numbered(lines: seq<string>, first: nat, hash: string -> string): (r: seq<TaggedLine>)
    ensures |r| == |lines|
  {
    seq(|lines|, i requires 0 <= i < |lines| => TaggedLine(first + i, hash(lines[i]), lines[i]))
  }

  function Tagged(lines: seq<string>, first: nat): (r: seq<TaggedLine>)
    ensures |r| == |lines|
  {
    Numbered(lines, first, HashLine)
  }

  lemma NumberedCons(lines: seq<string>, first: nat, hash: string -> string)
    requires |lines| > 0
    ensures Numbered(lines, first, hash)
         == [TaggedLine(first, hash(lines[0]), lines[0])] + Numbered(lines[1..], first + 1, hash)
  {
    var whole := Numbered(lines, first, hash);
    var split := [TaggedLine(first, hash(lines[0]), lines[0])] + Numbered(lines[1..], first + 1, hash);
    forall i | 0 <= i < |whole| ensures whole[i] == split[i] {
      if i > 0 {
        assert lines[1..][i - 1] == lines[i];
      }
    }
  }

  lemma TaggedCons(lines: seq<string>, first: nat)
    requires |lines| > 0
    ensures Tagged(lines, first)
         == [TaggedLine(first, HashLine(lines[0]), lines[0])] + Tagged(lines[1..], first + 1)
  {
    NumberedCons(lines, first, HashLine);
  }

  /** Reading a record followed by more text: the record, then what the rest reads as. */
  lemma ParseTaggedStep(body: string, rest: string)
    requires '\n' !in body
    ensures ParseTagged(body + ['\n'] + rest)
         == match ParseRecord(body)
            case None => None
            case Some(rec) =>
              match ParseTagged(rest)
              case None => None
              case Some(tail) => Some([rec] + tail)
  {
    var whole := body + ['\n'] + rest;
    IndexOfFirst(body, '\n', rest);
    assert whole[..|body|] == body;
    assert whole[|body| + 1..] == rest;
  }

  lemma {:induction false} TagLinesRoundTrip(lines: seq<string>, first: nat)
    requires forall i :: 0 <= i < |lines| ==> '\n' !in lines[i]
    ensures ParseTagged(TagLines(lines, first)) == Some(Tagged(lines, first))
    decreases |lines|
  {
    if |lines| > 0 {
      var line := lines[0];
      var hash := HashLine(line);
      var body := NatToString(first) + ":" + hash + "|" + line;
      NoSeparatorInNumeral(first);
      NoSeparatorInHash(line);
      assert '\n' !in body;
      var rest := TagLines(lines[1..], first + 1);
      assert TagLines(lines, first) == body + ['\n'] + rest;
      ParseTaggedStep(body, rest);
      RecordRoundTrip(first, hash, line);
      TagLinesRoundTrip(lines[1..], first + 1);
      TaggedCons(lines, first);
    }
  }

  /** The tagged view is lossless: reading it back gives, in order, one record
      per line of the content, numbered from 1, with that line's hash and text. */
  lemma TagContentRoundTrip(content: string)
    ensures ParseTagged(TagContent(content)).Some?
    ensures var records := ParseTagged(TagContent(content)).value;
      && |records| == |Lines(content)|
      && forall i :: 0 <= i < |records| ==>
           records[i] == TaggedLine(i + 1, HashLine(Lines(content)[i]), Lines(content)[i])
  {
    TagLinesRoundTrip(Lines(content), 1);
  }

  // ---------------------------------------------------------------------------
  // Anchors

  /** `LineAnchor`: a 1-based line number and the hash that line had. */
  datatype LineAnchor = LineAnchor(lineNum: nat, hash: string)

  /** The text has exactly one ':'. */
  predicate OneColon(s: string) {
    IndexOf(s, ':').Some? && ':' !in s[IndexOf(s, ':').value + 1..]
  }

  /** `LineAnchor::from_str`: split on ':' into exactly two parts, parse the
      first as a number, keep the second verbatim as the hash. */
  function ParseAnchor(s: string): (r: Result<LineAnchor, Failure>)
    ensures !OneColon(s) ==> r == Err(InvalidAnchorFormat)
    ensures OneColon(s) ==>
      var i := IndexOf(s, ':').value;
      match ParseUsize(s[..i])
      case Ok(n) => r == Ok(LineAnchor(n, s[i + 1..]))
      case Err(k) => r == Err(InvalidInteger(k))
  {
    var parts := Split(s, ':');
    SplitInTwo(s, ':');
    if |parts| != 2 then Err(InvalidAnchorFormat)
    else match ParseUsize(parts[0])
      case Err(k) => Err(InvalidInteger(k))
      case Ok(n) => Ok(LineAnchor(n, parts[1]))
  }

  /** An anchor written as `"{n}:{hash}"`, with no ':' in the hash, reads back
      as itself; the hash is not required to be hex. */
  lemma AnchorRoundTrip(n: nat, hash: string)
    requires ':' !in hash
    ensures ParseAnchor(AnchorText(n, hash)) == Ok(LineAnchor(n, hash))
  {
    var num := NatToString(n);
    NoSeparatorInNumeral(n);
    var s := AnchorText(n, hash);
    assert s == num + [':'] + hash;
    IndexOfFirst(num, ':', hash);
    ParseFormatted(n);
  }

  // ---------------------------------------------------------------------------
  // Resolution

  /** The indices of the lines whose hash is `hash`, as an independent set. */
  ghost function MatchSet(lines: seq<string>, hash: string): set<nat> {
    set i: nat | i < |lines| && HashLine(lines[i]) == hash
  }

  /** The hash of every line, in order. */
  function LineHashes(lines: seq<string>): (r: seq<string>)
    ensures |r| == |lines|
    ensures forall i :: 0 <= i < |lines| ==> r[i] == HashLine(lines[i])
  {
    seq(|lines|, i requires 0 <= i < |lines| => HashLine(lines[i]))
  }

  /** The indices the fuzzy scan collects: those whose hash is `hash`, in
      increasing order. */
  function MatchingIndices(hashes: seq<string>, hash: string): (r: seq<nat>)
    ensures forall k :: 0 <= k < |r| ==> r[k] < |hashes| && hashes[r[k]] == hash
    ensures forall i :: 0 <= i < |hashes| && hashes[i] == hash ==> i in r
    ensures forall j, k :: 0 <= j < k < |r| ==> r[j] < r[k]
    decreases |hashes|
  {
    if |hashes| == 0 then []
    else
      var last := |hashes| - 1;
      var init := MatchingIndices(hashes[..last], hash);
      if hashes[last] == hash then init + [last] else init
  }

  ghost function Elements(r: seq<nat>): set<nat> {
    set x | x in r
  }

  lemma {:induction false} IncreasingCardinality(r: seq<nat>)
    requires forall j, k :: 0 <= j < k < |r| ==> r[j] < r[k]
    ensures |Elements(r)| == |r|
    decreases |r|
  {
    if |r| > 0 {
      var init := r[..|r| - 1];
      var last := r[|r| - 1];
      IncreasingCardinality(init);
      assert Elements(r) == Elements(init) + {last} by {
        assert r == init + [last];
      }
      assert last !in Elements(init) by {
        forall x | x in init ensures x < last {
          var k :| 0 <= k < |init| && init[k] == x;
          assert r[k] == x;
        }
      }
    }
  }

  /** The fuzzy scan finds every matching line exactly once. */
  lemma MatchCount(lines: seq<string>, hash: string)
    ensures |MatchSet(lines, hash)| == |MatchingIndices(LineHashes(lines), hash)|
  {
    var r := MatchingIndices(LineHashes(lines), hash);
    assert MatchSet(lines, hash) == Elements(r);
    IncreasingCardinality(r);
  }

  /** The 0-based index the anchor names; line number 0 is taken as line 1. */
  function ExactIndex(anchor: LineAnchor): nat {
    if anchor.lineNum == 0 then 0 else anchor.lineNum - 1
  }

  /** The anchor's own position exists and still carries its hash. */
  predicate ExactHit(lines: seq<string>, anchor: LineAnchor) {
    ExactIndex(anchor) < |lines| && HashLine(lines[ExactIndex(anchor)]) == anchor.hash
  }

  /** `resolve_anchor`: the anchor's own position when it still matches (even if
      other lines share the hash); otherwise the unique line with the hash;
      otherwise "not found" or "ambiguous" with the number of matches. */
  function ResolveAnchor(lines: seq<string>, anchor: LineAnchor): (r: Result<nat, Failure>)
    ensures r.Ok? ==> r.value < |lines| && HashLine(lines[r.value]) == anchor.hash
    ensures ExactHit(lines, anchor) ==> r == Ok(ExactIndex(anchor))
    ensures !ExactHit(lines, anchor) ==> (r.Ok? <==> |MatchSet(lines, anchor.hash)| == 1)
    ensures !ExactHit(lines, anchor) && |MatchSet(lines, anchor.hash)| == 0 ==>
      r == Err(AnchorNotFound(anchor.lineNum, anchor.hash))
    ensures !ExactHit(lines, anchor) && |MatchSet(lines, anchor.hash)| >= 2 ==>
      r == Err(AnchorAmbiguous(anchor.lineNum, anchor.hash, |MatchSet(lines, anchor.hash)|))
  {
    var idx := ExactIndex(anchor);
    if idx < |lines| && HashLine(lines[idx]) == anchor.hash then Ok(idx)
    else
      var hashes := LineHashes(lines);
      var matches := MatchingIndices(hashes, anchor.hash);
      MatchCount(lines, anchor.hash);
      if |matches| == 1 then Ok(matches[0])
      else if |matches| == 0 then Err(AnchorNotFound(anchor.lineNum, anchor.hash))
      else Err(AnchorAmbiguous(anchor.lineNum, anchor.hash, |matches|))
  }

  /** An anchor whose own position no longer carries its hash moves to the one
      line that does, when there is exactly one. */
  lemma RelocatesToUniqueMatch(lines: seq<string>, anchor: LineAnchor, j: nat)
    requires !ExactHit(lines, anchor)
    requires j < |lines| && HashLine(lines[j]) == anchor.hash
    requires forall i :: 0 <= i < |lines| && i != j ==> HashLine(lines[i]) != anchor.hash
    ensures ResolveAnchor(lines, anchor) == Ok(j)
  {
    assert MatchSet(lines, anchor.hash) == {j};
  }
}

=== FILE: numbers.dfy ===
/** Decimal and hexadecimal text of natural numbers: Rust's `{}` and `{:0Nx}`
    formatting and `str::parse::<usize>()`. */
module Numbers {
  import opened Wrappers

  predicate IsDigit(c: char) {
    '0' <= c <= '9'
  }

  predicate AllDigits(s: string) {
    forall i :: 0 <= i < |s| ==> IsDigit(s[i])
  }

  function DigitValue(c: char): nat
    requires IsDigit(c)
  {
    (c as int) - ('0' as int)
  }

  function DigitChar(d: nat): (c: char)
    requires d < 10
    ensures IsDigit(c) && DigitValue(c) == d
  {
    (('0' as int) + d) as char
  }

  /** The value of a numeral, most significant digit first. */
  function DecimalValue(s: string): nat
    requires AllDigits(s)
    decreases |s|
  {
    if |s| == 0 then 0 else DecimalValue(s[..|s| - 1]) * 10 + DigitValue(s[|s| - 1])
  }

  /** Decimal formatting: the shortest numeral denoting `n`. */
  function NatToString(n: nat): (r: string)
    ensures |r| >= 1 && AllDigits(r)
    ensures DecimalValue(r) == n
    ensures r[0] == '0' ==> r == "0"
    decreases n
  {
    if n < 10 then [DigitChar(n)]
    else
      var front := NatToString(n / 10);
      var r := front + [DigitChar(n % 10)];
      assert r[..|r| - 1] == front;
      r
  }

  /** The error kinds of `ParseIntError` an unbounded parse can produce. */
  datatype IntErrorKind = Empty | InvalidDigit

  /** The digits `parse::<usize>()` reads: one leading '+' is allowed. */
  function UnsignedDigits(s: string): string {
    if |s| > 0 && s[0] == '+' then s[1..] else s
  }

  /** `str::parse::<usize>()`, without the 64-bit overflow bound. */
  function ParseUsize(s: string): (r: Result<nat, IntErrorKind>)
    ensures r == Err(Empty) <==> s == []
    ensures r.Ok? <==> |UnsignedDigits(s)| > 0 && AllDigits(UnsignedDigits(s))
    ensures r.Ok? ==> r.value == DecimalValue(UnsignedDigits(s))
  {
    if |s| == 0 then Err(Empty)
    else
      var digits := UnsignedDigits(s);
      if |digits| > 0 && AllDigits(digits) then Ok(DecimalValue(digits)) else Err(InvalidDigit)
  }

  /** Parsing the decimal text of a number gives the number back. */
  lemma ParseFormatted(n: nat)
    ensures ParseUsize(NatToString(n)) == Ok(n)
  {
    var s := NatToString(n);
    assert s[0] != '+';
  }

  predicate IsLowerHex(c: char) {
    '0' <= c <= '9' || 'a' <= c <= 'f'
  }

  predicate AllLowerHex(s: string) {
    forall i :: 0 <= i < |s| ==> IsLowerHex(s[i])
  }

  function HexDigitValue(c: char): nat
    requires IsLowerHex(c)
  {
    if c <= '9' then (c as int) - ('0' as int) else (c as int) - ('a' as int) + 10
  }

  function HexDigit(d: nat): (c: char)
    requires d < 16
    ensures IsLowerHex(c) && HexDigitValue(c) == d
  {
    if d < 10 then (('0' as int) + d) as char else (('a' as int) + d - 10) as char
  }

  function HexValue(s: string): nat
    requires AllLowerHex(s)
    decreases |s|
  {
    if |s| == 0 then 0 else HexValue(s[..|s| - 1]) * 16 + HexDigitValue(s[|s| - 1])
  }

  function Pow16(n: nat): (r: nat)
    ensures r >= 1
  {
    if n == 0 then 1 else 16 * Pow16(n - 1)
  }

  /** Hex formatting padded with zeros to width `w`, for a value that fits in
      `w` hex digits: lower-case hex of exactly `w` characters. */
  function HexPadded(v: nat, width: nat): (r: string)
    requires v < Pow16(width)
    ensures |r| == width && AllLowerHex(r)
    decreases width
  {
    if width == 0 then []
    else
      assert v / 16 < Pow16(width - 1);
      HexPadded(v / 16, width - 1) + [HexDigit(v % 16)]
  }

  /** The padded hex text reads back as the value it was made from. */
  lemma {:induction false} HexPaddedValue(v: nat, width: nat)
    requires v < Pow16(width)
    ensures HexValue(HexPadded(v, width)) == v
    decreases width
  {
    if width > 0 {
      var front := HexPadded(v / 16, width - 1);
      var r := HexPadded(v, width);
      assert r == front + [HexDigit(v % 16)];
      assert r[..|r| - 1] == front;
      HexPaddedValue(v / 16, width - 1);
    }
  }
}

=== FILE: scenarios.dfy ===
/** Worked cases of the applier on a three-line file, following the unit test
    of `apply_operations`. Anchors carry the hash of the line they name, so no
    concrete FNV value is ever computed. */
module Scenarios {
  import opened Wrappers
  import opened Strings
  import opened Numbers
  import opened Errors
  import opened Hashline
  import opened StableSort
  import opened Applier

  /** A line as `lines()` yields it: no line feed, no carriage return. */
  predicate PlainLine(s: string) {
    '\n' !in s && '\r' !in s
  }

  /** A plain line followed by a line feed is the first line of the text. */
  lemma LinesOfTerminated(head: string, rest: string)
    requires PlainLine(head)
    ensures Lines(head + "\n" + rest) == [head] + Lines(rest)
  {
    IndexOfFirst(head, '\n', rest);
    if |head| > 0 {
      assert head[|head| - 1] in head;
    }
    assert StripCr(head) == head;
  }

  /** A non-empty plain line is its own only line. */
  lemma OneLine(s: string)
    requires PlainLine(s) && |s| > 0
    ensures Lines(s) == [s]
  {
  }

  /** The three-line file of the unit test, with arbitrary line texts. */
  function File(a: string, b: string, c: string): string {
    a + "\n" + b + "\n" + c + "\n"
  }

  lemma FileLines(a: string, b: string, c: string)
    requires PlainLine(a) && PlainLine(b) && PlainLine(c)
    ensures Lines(File(a, b, c)) == [a, b, c]
  {
    assert File(a, b, c) == a + "\n" + (b + "\n" + (c + "\n" + ""));
    LinesOfTerminated(c, "");
    LinesOfTerminated(b, c + "\n" + "");
    LinesOfTerminated(a, b + "\n" + (c + "\n" + ""));
  }

  /** An empty batch on a file with "\r\n" line endings writes it back with
      "\n" endings: `lines()` drops the carriage returns and the join does not
      restore them. */
  lemma EmptyBatchNormalisesCrLf(a: string, b: string)
    requires PlainLine(a) && PlainLine(b) && |b| > 0
    ensures ApplyOperations(a + "\r\n" + b + "\r\n", []) == Ok(a + "\n" + b + "\n")
  {
    var content := a + "\r\n" + (b + "\r\n" + "");
    assert a + "\r\n" + b + "\r\n" == content;
    LinesOfCrLf(b, "");
    LinesOfCrLf(a, b + "\r\n" + "");
    EmptyBatch(content);
    JoinCons(a, [b], "\n");
    assert b[|b| - 1] in b;
  }

  /** The anchor `n:hash` naming a line with text `line`. */
  function AnchorFor(n: nat, line: string): LineAnchor {
    LineAnchor(n, HashLine(line))
  }

  /** An anchor that names a line by its own number and text resolves to it. */
  lemma ResolveExact(lines: seq<string>, i: nat)
    requires i < |lines|
    ensures ResolveAnchor(lines, AnchorFor(i + 1, lines[i])) == Ok(i)
  {
    assert ExactHit(lines, AnchorFor(i + 1, lines[i]));
  }

  /** Joining three plain lines and finishing against a file that ends in a
      line feed gives the three-line file back. */
  lemma FinishThree(content: string, a: string, b: string, c: string)
    requires EndsWithNewline(content) && PlainLine(c) && |c| > 0
    ensures Finish(content, [a, b, c]) == File(a, b, c)
  {
    JoinCons(a, [b, c], "\n");
    JoinCons(b, [c], "\n");
    var joined := Join([a, b, c], "\n");
    assert joined == a + "\n" + (b + "\n" + c);
    assert joined[|joined| - 1] == c[|c| - 1];
    assert c[|c| - 1] in c;
  }

  /** The same for a single remaining line. */
  lemma FinishOne(content: string, c: string)
    requires EndsWithNewline(content) && PlainLine(c) && |c| > 0
    ensures Finish(content, [c]) == c + "\n"
  {
    assert c[|c| - 1] in c;
  }

  /** A single operation that resolves to `r` and fits yields the finished
      splice. */
  lemma AppliesAs(content: string, op: HashlineOperation, r: ResolvedOp, expected: seq<string>)
    requires ResolveOp(Lines(content), op) == Ok(r)
    requires !Inverted(r) && !Inert(r) && At(r) + Removed(r) <= |Lines(content)|
    requires Splice(Lines(content), r) == expected
    ensures ApplyOperations(content, [op]) == Ok(Finish(content, expected))
  {
    SingleOperation(content, op);
  }

  /** The replacement of line 2 resolves to index 1 and splices in the text. */
  lemma ReplaceSecondLinePlan(a: string, b: string, c: string, text: string)
    requires PlainLine(a) && PlainLine(b) && PlainLine(c) && PlainLine(text) && |text| > 0
    ensures var lines := Lines(File(a, b, c));
      var r := ResolvedOp(1, None, Replace, Some(text));
      && ResolveOp(lines, HashlineOperation(Replace, AnchorFor(2, b), None, Some(text))) == Ok(r)
      && At(r) + Removed(r) <= |lines|
      && Splice(lines, r) == [a, text, c]
  {
    FileLines(a, b, c);
    ResolveExact([a, b, c], 1);
    SpliceSecond(a, b, c, text);
  }

  lemma SpliceSecond(a: string, b: string, c: string, text: string)
    requires PlainLine(text) && |text| > 0
    ensures Splice([a, b, c], ResolvedOp(1, None, Replace, Some(text))) == [a, text, c]
  {
    OneLine(text);
    assert [a, b, c][..1] == [a] && [a, b, c][2..] == [c];
  }

  /** The unit test of `apply_operations`: replacing line 2 swaps in the new
      text and keeps the final line feed. */
  lemma ReplaceSecondLine(a: string, b: string, c: string, text: string)
    requires PlainLine(a) && PlainLine(b) && PlainLine(c) && PlainLine(text)
    requires |c| > 0 && |text| > 0
    ensures ApplyOperations(File(a, b, c), [HashlineOperation(Replace, AnchorFor(2, b), None, Some(text))])
      == Ok(File(a, text, c))
  {
    ReplaceSecondLinePlan(a, b, c, text);
    AppliesAs(File(a, b, c), HashlineOperation(Replace, AnchorFor(2, b), None, Some(text)),
      ResolvedOp(1, None, Replace, Some(text)), [a, text, c]);
    FinishThree(File(a, b, c), a, text, c);
  }

  /** Deleting lines 1 through 2 resolves to indices 0 and 1 and leaves the
      third line. */
  lemma DeleteFirstTwoLinesPlan(a: string, b: string, c: string)
    requires PlainLine(a) && PlainLine(b) && PlainLine(c)
    ensures var lines := Lines(File(a, b, c));
      var r := ResolvedOp(0, Some(1), Delete, None);
      && ResolveOp(lines, HashlineOperation(Delete, AnchorFor(1, a), Some(AnchorFor(2, b)), None)) == Ok(r)
      && At(r) + Removed(r) <= |lines|
      && Splice(lines, r) == [c]
  {
    var lines := [a, b, c];
    FileLines(a, b, c);
    ResolveExact(lines, 0);
    ResolveExact(lines, 1);
    assert lines[2..] == [c];
  }

  /** Deleting lines 1 through 2 leaves the third line. */
  lemma DeleteFirstTwoLines(a: string, b: string, c: string)
    requires PlainLine(a) && PlainLine(b) && PlainLine(c) && |c| > 0
    ensures ApplyOperations(File(a, b, c), [HashlineOperation(Delete, AnchorFor(1, a), Some(AnchorFor(2, b)), None)])
      == Ok(c + "\n")
  {
    DeleteFirstTwoLinesPlan(a, b, c);
    AppliesAs(File(a, b, c), HashlineOperation(Delete, AnchorFor(1, a), Some(AnchorFor(2, b)), None),
      ResolvedOp(0, Some(1), Delete, None), [c]);
    FinishOne(File(a, b, c), c);
  }

  /** A range whose end names an earlier line than its start is refused. */
  lemma DeleteBackwards(a: string, b: string, c: string)
    requires PlainLine(a) && PlainLine(b) && PlainLine(c)
    ensures ApplyOperations(File(a, b, c), [HashlineOperation(Delete, AnchorFor(2, b), Some(AnchorFor(1, a)), None)])
      == Err(EndBeforeStart)
  {
    DeleteBackwardsPlan(a, b, c);
    SingleOperation(File(a, b, c), HashlineOperation(Delete, AnchorFor(2, b), Some(AnchorFor(1, a)), None));
  }

  lemma DeleteBackwardsPlan(a: string, b: string, c: string)
    requires PlainLine(a) && PlainLine(b) && PlainLine(c)
    ensures ResolveOp(Lines(File(a, b, c)), HashlineOperation(Delete, AnchorFor(2, b), Some(AnchorFor(1, a)), None))
      == Ok(ResolvedOp(1, Some(0), Delete, None))
  {
    FileLines(a, b, c);
    ResolveExact([a, b, c], 0);
    ResolveExact([a, b, c], 1);
  }

  /** Two operations that both resolve resolve as a batch, in order. */
  lemma ResolveTwo(lines: seq<string>, x: HashlineOperation, y: HashlineOperation)
    requires ResolveOp(lines, x).Ok? && ResolveOp(lines, y).Ok?
    ensures ResolveAll(lines, [x, y]) == Ok([ResolveOp(lines, x).value, ResolveOp(lines, y).value])
  {
    var all := ResolveAll(lines, [x, y]);
    assert [x, y][0] == x && [x, y][1] == y;
    assert all.Ok?;
    assert all.value == [all.value[0], all.value[1]];
  }

  /** Operations anchored at lines 1 and 3 resolve to indices 0 and 2. */
  lemma FirstAndThirdPlan(a: string, b: string, c: string, x: HashlineOperation, y: HashlineOperation)
    requires PlainLine(a) && PlainLine(b) && PlainLine(c)
    requires x.anchor == AnchorFor(1, a) && y.anchor == AnchorFor(3, c)
    requires x.endAnchor.None? && y.endAnchor.None?
    ensures ResolveAll(Lines(File(a, b, c)), [x, y])
         == Ok([ResolvedOp(0, None, x.opType, x.content), ResolvedOp(2, None, y.opType, y.content)])
  {
    var lines := Lines(File(a, b, c));
    FileLines(a, b, c);
    ResolveExact([a, b, c], 0);
    ResolveExact([a, b, c], 2);
    ResolveTwo(lines, x, y);
  }

  /** Two operations that resolve to different start lines commute. */
  lemma SwapTwo(content: string, x: HashlineOperation, y: HashlineOperation)
    requires ResolveAll(Lines(content), [x, y]).Ok?
    requires DistinctKeys(ResolveAll(Lines(content), [x, y]).value, StartOf)
    ensures ApplyOperations(content, [x, y]) == ApplyOperations(content, [y, x])
  {
    var ops1, ops2 := [x, y], [y, x];
    SwapPermutes(x, y);
    OrderIndependence(content, ops1, ops2);
  }

  lemma SwapPermutes<T>(x: T, y: T)
    ensures multiset([x, y]) == multiset([y, x])
  {
  }

  /** Editing lines 1 and 3 of the file gives the same content whichever of
      the two operations is submitted first. */
  lemma FirstAndThirdInEitherOrder(a: string, b: string, c: string, x: HashlineOperation, y: HashlineOperation)
    requires PlainLine(a) && PlainLine(b) && PlainLine(c)
    requires x.anchor == AnchorFor(1, a) && y.anchor == AnchorFor(3, c)
    requires x.endAnchor.None? && y.endAnchor.None?
    ensures ApplyOperations(File(a, b, c), [x, y]) == ApplyOperations(File(a, b, c), [y, x])
  {
    FirstAndThirdPlan(a, b, c, x, y);
    SwapTwo(File(a, b, c), x, y);
  }

  /** Deleting lines 1 through 3 together with line 3 alone resolves, against
      the original lines, to the ranges 0..2 and 2. */
  lemma OverlappingDeletesPlan(a: string, b: string, c: string)
    requires PlainLine(a) && PlainLine(b) && PlainLine(c)
    ensures ResolveAll(Lines(File(a, b, c)), [
        HashlineOperation(Delete, AnchorFor(1, a), Some(AnchorFor(3, c)), None),
        HashlineOperation(Delete, AnchorFor(3, c), None, None)])
      == Ok([ResolvedOp(0, Some(2), Delete, None), ResolvedOp(2, None, Delete, None)])
  {
    var lines := Lines(File(a, b, c));
    FileLines(a, b, c);
    ResolveExact([a, b, c], 0);
    ResolveExact([a, b, c], 2);
    ResolveTwo(lines,
      HashlineOperation(Delete, AnchorFor(1, a), Some(AnchorFor(3, c)), None),
      HashlineOperation(Delete, AnchorFor(3, c), None, None));
  }

  /** Deleting the last line drops it. */
  lemma DeleteLast(lines: seq<string>)
    requires |lines| > 0
    ensures ApplyOne(lines, ResolvedOp(|lines| - 1, None, Delete, None)) == Ok(lines[..|lines| - 1])
  {
    var op := ResolvedOp(|lines| - 1, None, Delete, None);
    var front := lines[..|lines| - 1];
    assert Splice(lines, op) == front + [] + lines[|lines|..];
    assert lines[|lines|..] == [];
    assert front + [] + [] == front;
  }

  /** A range reaching past the end of the lines panics. */
  lemma DeletePastEnd(lines: seq<string>, start: nat, end: nat)
    requires start <= end && |lines| <= end
    ensures ApplyOne(lines, ResolvedOp(start, Some(end), Delete, None)) == Err(Panic)
  {
  }

  /** The higher range goes first and shrinks the lines below the lower one. */
  lemma OverlappingDeletesBatch(lines: seq<string>)
    requires |lines| == 3
    ensures ApplyBatch(lines, [ResolvedOp(0, Some(2), Delete, None), ResolvedOp(2, None, Delete, None)])
      == Err(Panic)
  {
    var wide, narrow := ResolvedOp(0, Some(2), Delete, None), ResolvedOp(2, None, Delete, None);
    assert SortDescending([wide, narrow], StartOf) == [narrow, wide] by {
      assert [wide, narrow][1..] == [narrow];
      assert SortDescending([narrow], StartOf) == [narrow];
    }
    DeleteLast(lines);
    DeletePastEnd(lines[..2], 0, 2);
    assert ApplyAll(lines[..2], [wide]) == Err(Panic);
    assert [narrow, wide][1..] == [wide];
    assert ApplyAll(lines, [narrow, wide]) == ApplyAll(lines[..2], [wide]);
  }

  /** Overlapping ranges are not detected: the higher one is applied first,
      the file shrinks, and the lower range then runs past the end, which is a
      panic in `Vec::drain`. */
  lemma OverlappingDeletesPanic(a: string, b: string, c: string)
    requires PlainLine(a) && PlainLine(b) && PlainLine(c)
    ensures ApplyOperations(File(a, b, c), [
        HashlineOperation(Delete, AnchorFor(1, a), Some(AnchorFor(3, c)), None),
        HashlineOperation(Delete, AnchorFor(3, c), None, None)])
      == Err(Panic)
  {
    OverlappingDeletesPlan(a, b, c);
    FileLines(a, b, c);
    OverlappingDeletesBatch([a, b, c]);
    AfterResolution(File(a, b, c), [
        HashlineOperation(Delete, AnchorFor(1, a), Some(AnchorFor(3, c)), None),
        HashlineOperation(Delete, AnchorFor(3, c), None, None)]);
  }

  /** Deleting lines 1 through 2 together with line 2 alone resolves, against
      the original lines, to the ranges 0..1 and 1. */
  lemma OverlappingDeletesLosePlan(a: string, b: string, c: string)
    requires PlainLine(a) && PlainLine(b) && PlainLine(c)
    ensures ResolveAll(Lines(File(a, b, c)), [
        HashlineOperation(Delete, AnchorFor(1, a), Some(AnchorFor(2, b)), None),
        HashlineOperation(Delete, AnchorFor(2, b), None, None)])
      == Ok([ResolvedOp(0, Some(1), Delete, None), ResolvedOp(1, None, Delete, None)])
  {
    var lines := Lines(File(a, b, c));
    FileLines(a, b, c);
    ResolveExact([a, b, c], 0);
    ResolveExact([a, b, c], 1);
    ResolveTwo(lines,
      HashlineOperation(Delete, AnchorFor(1, a), Some(AnchorFor(2, b)), None),
      HashlineOperation(Delete, AnchorFor(2, b), None, None));
  }

  /** Line 2 goes first; the range 0..1 then covers what was line 3. */
  lemma OverlappingDeletesLoseBatch(lines: seq<string>)
    requires |lines| == 3
    ensures ApplyBatch(lines, [ResolvedOp(0, Some(1), Delete, None), ResolvedOp(1, None, Delete, None)])
      == Ok([])
  {
    var wide, narrow := ResolvedOp(0, Some(1), Delete, None), ResolvedOp(1, None, Delete, None);
    assert SortDescending([wide, narrow], StartOf) == [narrow, wide] by {
      assert [wide, narrow][1..] == [narrow];
      assert SortDescending([narrow], StartOf) == [narrow];
    }
    var rest := [lines[0], lines[2]];
    DeleteSecond(lines);
    DeleteBoth(rest);
    assert [narrow, wide][1..] == [wide];
    assert ApplyAll(lines, [narrow, wide]) == ApplyAll(rest, [wide]);
  }

  /** Deleting the middle of three lines keeps the outer two. */
  lemma DeleteSecond(lines: seq<string>)
    requires |lines| == 3
    ensures ApplyOne(lines, ResolvedOp(1, None, Delete, None)) == Ok([lines[0], lines[2]])
  {
    var op := ResolvedOp(1, None, Delete, None);
    assert Splice(lines, op) == lines[..1] + [] + lines[2..];
    assert lines[..1] == [lines[0]] && lines[2..] == [lines[2]];
    assert [lines[0]] + [] + [lines[2]] == [lines[0], lines[2]];
  }

  /** Deleting the range 0..1 of two lines leaves none. */
  lemma DeleteBoth(lines: seq<string>)
    requires |lines| == 2
    ensures ApplyAll(lines, [ResolvedOp(0, Some(1), Delete, None)]) == Ok([])
  {
    var op := ResolvedOp(0, Some(1), Delete, None);
    assert Splice(lines, op) == lines[..0] + [] + lines[2..];
    assert lines[2..] == [];
    assert ApplyOne(lines, op) == Ok([]);
    assert [op][1..] == [];
  }

  /** Overlapping ranges can also succeed and remove a line no operation named:
      once line 2 is gone, the range for lines 1 through 2 drains what was line
      3, and the file is written back as a single line feed. */
  lemma OverlappingDeletesLoseLine(a: string, b: string, c: string)
    requires PlainLine(a) && PlainLine(b) && PlainLine(c)
    ensures ApplyOperations(File(a, b, c), [
        HashlineOperation(Delete, AnchorFor(1, a), Some(AnchorFor(2, b)), None),
        HashlineOperation(Delete, AnchorFor(2, b), None, None)])
      == Ok("\n")
  {
    OverlappingDeletesLosePlan(a, b, c);
    FileLines(a, b, c);
    OverlappingDeletesLoseBatch([a, b, c]);
    AfterResolution(File(a, b, c), [
        HashlineOperation(Delete, AnchorFor(1, a), Some(AnchorFor(2, b)), None),
        HashlineOperation(Delete, AnchorFor(2, b), None, None)]);
    FinishNone(File(a, b, c));
  }

  /** Finishing no lines against content that ended in a line feed writes a
      lone line feed. */
  lemma FinishNone(content: string)
    requires EndsWithNewline(content)
    ensures Finish(content, []) == "\n"
  {
    assert Join([], "\n") == [];
    assert !EndsWithNewline([]);
    assert [] + "\n" == "\n";
  }

  /** Text anchors without exactly one colon are refused before any number is
      read. */
  lemma MalformedAnchors()
    ensures ParseAnchor("12") == Err(InvalidAnchorFormat)
    ensures ParseAnchor("1:2:3") == Err(InvalidAnchorFormat)
  {
    assert IndexOf("1:2:3", ':') == Some(1);
    assert "1:2:3"[2..][1] == ':';
  }

  /** A carriage return that does not end a line survives an empty batch. */
  lemma EmptyBatchKeepsBareCr()
    ensures ApplyOperations("a\rb\n", []) == Ok("a\rb\n")
    ensures ApplyOperations("a\r", []) == Ok("a\r")
  {
    EmptyBatchRoundTrip("a\rb\n");
    EmptyBatchRoundTrip("a\r");
  }

  /** An empty batch on content ending in a blank line drops that line. */
  lemma EmptyBatchOnBlankLine()
    ensures ApplyOperations("a\n\n", []) == Ok("a\n")
  {
    assert "a\n\n"[..2] == "a\n";
    EmptyBatchDropsFinalBlankLine("a\n\n");
  }
}

=== FILE: stable_sort.dfy ===
/** A stable sort by descending key, the order the batch is put in before it is
    applied: keys never increase, nothing is lost or added, and elements with
    equal keys keep their input order. */
module StableSort {

  /** Keys never increase along `s`. */
  predicate Descending<T>(s: seq<T>, key: T -> nat) {
    forall i, j :: 0 <= i < j < |s| ==> key(s[i]) >= key(s[j])
  }

  /** No two elements of `s` share a key. */
  predicate DistinctKeys<T>(s: seq<T>, key: T -> nat) {
    forall i, j :: 0 <= i < j < |s| ==> key(s[i]) != key(s[j])
  }

  /** The elements of `s` with key `k`, in their order in `s`. */
  function WithKey<T>(s: seq<T>, key: T -> nat, k: nat): seq<T>
    decreases |s|
  {
    if |s| == 0 then [] else (if key(s[0]) == k then [s[0]] else []) + WithKey(s[1..], key, k)
  }

  lemma WithKeyCons<T>(x: T, s: seq<T>, key: T -> nat, k: nat)
    ensures WithKey([x] + s, key, k) == (if key(x) == k then [x] else []) + WithKey(s, key, k)
  {
    assert ([x] + s)[1..] == s;
  }

  /** Places `x` before the first element whose key is not larger, so that it
      follows every element with a larger key and precedes the equal ones. */
  function Insert<T>(x: T, s: seq<T>, key: T -> nat): (r: seq<T>)
    requires Descending(s, key)
    ensures Descending(r, key)
    ensures |r| > 0 && (key(r[0]) == key(x) || (|s| > 0 && r[0] == s[0]))
    ensures multiset(r) == multiset(s) + multiset{x}
    decreases |s|
  {
    if |s| == 0 || key(x) >= key(s[0]) then
      DescendingCons(x, s, key);
      [x] + s
    else
      assert s == [s[0]] + s[1..];
      var rest := Insert(x, s[1..], key);
      DescendingCons(s[0], rest, key);
      [s[0]] + rest
  }

  /** An element no smaller than the head of a descending sequence extends it. */
  lemma DescendingCons<T>(x: T, s: seq<T>, key: T -> nat)
    requires Descending(s, key) && (|s| > 0 ==> key(x) >= key(s[0]))
    ensures Descending([x] + s, key)
  {
    var r := [x] + s;
    forall i, j | 0 <= i < j < |r| ensures key(r[i]) >= key(r[j]) {
      if i == 0 && j > 1 {
        assert key(s[0]) >= key(s[j - 1]);
      }
    }
  }

  /** Insertion keeps the relative order of equal keys, with `x` first. */
  lemma {:induction false} InsertStable<T>(x: T, s: seq<T>, key: T -> nat, k: nat)
    requires Descending(s, key)
    ensures WithKey(Insert(x, s, key), key, k) == (if key(x) == k then [x] else []) + WithKey(s, key, k)
    decreases |s|
  {
    if |s| == 0 || key(x) >= key(s[0]) {
      WithKeyCons(x, s, key, k);
    } else {
      var head, tail := s[0], s[1..];
      assert s == [head] + tail;
      InsertStable(x, tail, key, k);
      WithKeyCons(head, Insert(x, tail, key), key, k);
      WithKeyCons(head, tail, key, k);
    }
  }

  /** Insertion sort: each element is inserted ahead of the equal-keyed
      elements that came after it in the input. */
  function SortDescending<T>(s: seq<T>, key: T -> nat): (r: seq<T>)
    ensures Descending(r, key)
    ensures multiset(r) == multiset(s)
    decreases |s|
  {
    if |s| == 0 then []
    else
      assert s == [s[0]] + s[1..];
      Insert(s[0], SortDescending(s[1..], key), key)
  }

  /** The sort is stable: for every key, the elements carrying it come out in
      the order they went in. */
  lemma {:induction false} SortStable<T>(s: seq<T>, key: T -> nat, k: nat)
    ensures WithKey(SortDescending(s, key), key, k) == WithKey(s, key, k)
    decreases |s|
  {
    if |s| > 0 {
      assert s == [s[0]] + s[1..];
      SortStable(s[1..], key, k);
      InsertStable(s[0], SortDescending(s[1..], key), key, k);
      WithKeyCons(s[0], s[1..], key, k);
    }
  }

  /** With distinct keys an element occurs at most once. */
  lemma {:induction false} DistinctKeysMultiplicity<T>(s: seq<T>, key: T -> nat, x: T)
    requires DistinctKeys(s, key)
    ensures multiset(s)[x] <= 1
    decreases |s|
  {
    if |s| > 0 {
      assert s == [s[0]] + s[1..];
      DistinctKeysMultiplicity(s[1..], key, x);
      if s[0] == x {
        assert x !in s[1..] by {
          forall j | 0 <= j < |s[1..]| ensures s[1..][j] != x {
            assert s[1..][j] == s[j + 1];
          }
        }
      }
    }
  }

  lemma TwiceInSequence<T>(s: seq<T>, i: nat, j: nat)
    requires i < j < |s| && s[i] == s[j]
    ensures multiset(s)[s[i]] >= 2
  {
    assert s == s[..j] + [s[j]] + s[j + 1..];
    assert s[..j][i] == s[i];
    assert s[i] in multiset(s[..j]);
  }

  /** A permutation of a sequence with distinct keys has distinct keys. */
  lemma DistinctKeysOfPermutation<T>(a: seq<T>, b: seq<T>, key: T -> nat)
    requires multiset(a) == multiset(b)
    requires DistinctKeys(a, key)
    ensures DistinctKeys(b, key)
  {
    forall i, j | 0 <= i < j < |b| ensures key(b[i]) != key(b[j]) {
      if b[i] == b[j] {
        TwiceInSequence(b, i, j);
        DistinctKeysMultiplicity(a, key, b[i]);
      } else {
        assert b[i] in multiset(a) && b[j] in multiset(a);
        var p :| 0 <= p < |a| && a[p] == b[i];
        var q :| 0 <= q < |a| && a[q] == b[j];
        assert p != q;
      }
    }
  }

  lemma HeadsAgree<T>(a: seq<T>, b: seq<T>, key: T -> nat)
    requires multiset(a) == multiset(b) && |a| > 0
    requires Descending(a, key) && DistinctKeys(a, key)
    requires Descending(b, key) && DistinctKeys(b, key)
    ensures |b| > 0 && a[0] == b[0]
  {
    assert a[0] in multiset(b);
    var j :| 0 <= j < |b| && b[j] == a[0];
    assert b[0] in multiset(a);
    var i :| 0 <= i < |a| && a[i] == b[0];
  }

  lemma TailKeeps<T>(s: seq<T>, key: T -> nat)
    requires |s| > 0 && Descending(s, key) && DistinctKeys(s, key)
    ensures Descending(s[1..], key) && DistinctKeys(s[1..], key)
    ensures multiset(s[1..]) == multiset(s) - multiset{s[0]}
  {
    assert s == [s[0]] + s[1..];
    forall i, j | 0 <= i < j < |s[1..]|
      ensures key(s[1..][i]) >= key(s[1..][j]) && key(s[1..][i]) != key(s[1..][j])
    {
      assert s[1..][i] == s[i + 1] && s[1..][j] == s[j + 1];
    }
  }

  /** Two orderings of the same elements with strictly decreasing keys agree. */
  lemma {:induction false} StrictlyDescendingUnique<T>(a: seq<T>, b: seq<T>, key: T -> nat)
    requires multiset(a) == multiset(b)
    requires Descending(a, key) && DistinctKeys(a, key)
    requires Descending(b, key) && DistinctKeys(b, key)
    ensures a == b
    decreases |a|
  {
    if |a| == 0 {
      assert |multiset(b)| == |b|;
    } else {
      HeadsAgree(a, b, key);
      TailKeeps(a, key);
      TailKeeps(b, key);
      StrictlyDescendingUnique(a[1..], b[1..], key);
      forall k | 0 <= k < |a| ensures a[k] == b[k] {
        if k > 0 {
          assert a[k] == a[1..][k - 1] && b[k] == b[1..][k - 1];
        }
      }
    }
  }

  /** When keys are distinct, sorting forgets the input order entirely. */
  lemma SortForgetsOrder<T>(a: seq<T>, b: seq<T>, key: T -> nat)
    requires multiset(a) == multiset(b)
    requires DistinctKeys(a, key)
    ensures SortDescending(a, key) == SortDescending(b, key)
  {
    var sa, sb := SortDescending(a, key), SortDescending(b, key);
    DistinctKeysOfPermutation(a, sa, key);
    DistinctKeysOfPermutation(a, sb, key);
    StrictlyDescendingUnique(sa, sb, key);
  }
}

=== FILE: strings.dfy ===
/** The string primitives of Rust's standard library that the engine relies on:
    `str::trim_end`, `str::lines`, `str::split(char)` and `[&str]::join`. */
module Strings {
  import opened Wrappers

  /** Unicode White_Space, the set `char::is_whitespace` (and so `trim_end`) uses. */
  predicate IsWhitespace(c: char) {
    || ('\t' <= c <= '\r')
    || c == ' '
    || c == '\U{0085}'
    || c == '\U{00A0}'
    || c == '\U{1680}'
    || ('\U{2000}' <= c <= '\U{200A}')
    || c == '\U{2028}'
    || c == '\U{2029}'
    || c == '\U{202F}'
    || c == '\U{205F}'
    || c == '\U{3000}'
  }

  predicate AllWhitespace(s: string) {
    forall i :: 0 <= i < |s| ==> IsWhitespace(s[i])
  }

  predicate EndsWithNewline(s: string) {
    |s| > 0 && s[|s| - 1] == '\n'
  }

  /** `str::trim_end`: the longest prefix that does not end in whitespace. */
  function TrimEnd(s: string): (r: string)
    ensures r <= s
    ensures forall i :: |r| <= i < |s| ==> IsWhitespace(s[i])
    ensures r == [] || !IsWhitespace(r[|r| - 1])
    decreases |s|
  {
    if |s| == 0 || !IsWhitespace(s[|s| - 1]) then s else TrimEnd(s[..|s| - 1])
  }

  /** Appending whitespace never changes what `trim_end` keeps. */
  lemma {:induction false} TrimEndIgnoresWhitespaceSuffix(s: string, ws: string)
    requires AllWhitespace(ws)
    ensures TrimEnd(s + ws) == TrimEnd(s)
    decreases |ws|
  {
    if |ws| == 0 {
      assert s + ws == s;
    } else {
      var shorter := ws[..|ws| - 1];
      assert (s + ws)[..|s + ws| - 1] == s + shorter;
      TrimEndIgnoresWhitespaceSuffix(s, shorter);
    }
  }

  /** Position of the first occurrence of `c`, if any. */
  function IndexOf(s: string, c: char): (r: Option<nat>)
    ensures r.None? <==> c !in s
    ensures r.Some? ==> r.value < |s| && s[r.value] == c && c !in s[..r.value]
  {
    if |s| == 0 then None
    else if s[0] == c then Some(0)
    else match IndexOf(s[1..], c)
      case None => None
      case Some(k) =>
        assert s[..k + 1] == [s[0]] + s[1..][..k];
        Some(k + 1)
  }

  /** Cutting at the first `c` recovers the text before and after it. */
  lemma IndexOfFirst(a: string, c: char, b: string)
    requires c !in a
    ensures IndexOf(a + [c] + b, c) == Some(|a|)
    ensures (a + [c] + b)[..|a|] == a && (a + [c] + b)[|a| + 1..] == b
  {
    var s := a + [c] + b;
    assert s[..|a|] == a;
    assert s[|a|] == c;
  }

  /** `[&str]::join(sep)`: the parts in order with `sep` between neighbours. */
  function Join(parts: seq<string>, sep: string): (r: string)
    ensures |parts| == 0 ==> r == []
    ensures |parts| == 1 ==> r == parts[0]
    decreases |parts|
  {
    if |parts| == 0 then []
    else if |parts| == 1 then parts[0]
    else parts[0] + sep + Join(parts[1..], sep)
  }

  /** Joining one more part appends the separator and that part. */
  lemma {:induction false} JoinSnoc(parts: seq<string>, last: string, sep: string)
    requires |parts| > 0
    ensures Join(parts + [last], sep) == Join(parts, sep) + sep + last
    decreases |parts|
  {
    var all := parts + [last];
    if |parts| == 1 {
      assert all[1..] == [last];
    } else {
      assert all[1..] == parts[1..] + [last];
      JoinSnoc(parts[1..], last, sep);
      Regroup(parts[0], sep, Join(parts[1..], sep), last);
    }
  }

  lemma Regroup(a: string, sep: string, b: string, c: string)
    ensures a + sep + (b + sep + c) == (a + sep + b) + sep + c
  {
  }

  /** `str::split(sep)`: the pieces between separators, which join back to `s`. */
  function Split(s: string, sep: char): (parts: seq<string>)
    ensures |parts| >= 1
    ensures forall i :: 0 <= i < |parts| ==> sep !in parts[i]
    ensures Join(parts, [sep]) == s
    decreases |s|
  {
    match IndexOf(s, sep)
    case None => [s]
    case Some(i) =>
      var rest := Split(s[i + 1..], sep);
      assert s == s[..i] + [sep] + s[i + 1..];
      [s[..i]] + rest
  }

  /** Splitting yields exactly two pieces iff the separator occurs exactly once. */
  lemma SplitInTwo(s: string, sep: char)
    ensures |Split(s, sep)| == 2 <==>
      (IndexOf(s, sep).Some? && sep !in s[IndexOf(s, sep).value + 1..])
    ensures |Split(s, sep)| == 2 ==>
      Split(s, sep) == [s[..IndexOf(s, sep).value], s[IndexOf(s, sep).value + 1..]]
  {
    match IndexOf(s, sep)
    case None =>
    case Some(i) =>
      var rest := s[i + 1..];
      if sep in rest {
        assert |Split(rest, sep)| >= 2;
      }
  }

  /** Removes one trailing carriage return. */
  function StripCr(piece: string): string {
    if |piece| > 0 && piece[|piece| - 1] == '\r' then piece[..|piece| - 1] else piece
  }

  /** `str::lines()`: pieces of `split_inclusive('\n')`, each with its "\n" and
      then one "\r" before it removed; a final terminator adds no empty line. */
  function Lines(s: string): (r: seq<string>)
    ensures forall i :: 0 <= i < |r| ==> '\n' !in r[i]
    ensures |r| == 0 <==> |s| == 0
    decreases |s|
  {
    if |s| == 0 then []
    else match IndexOf(s, '\n')
      case None => [s]
      case Some(i) => [StripCr(s[..i])] + Lines(s[i + 1..])
  }

  /** No carriage return sits directly before a line feed: the text holds no "\r\n". */
  predicate NoCrLf(s: string) {
    forall i :: 0 < i < |s| && s[i] == '\n' ==> s[i - 1] != '\r'
  }

  /** Cutting text without "\r\n" at a line feed: the line before it loses
      nothing to `StripCr`, and the text after it has no "\r\n" either. */
  lemma NoCrLfPieces(s: string, i: nat)
    requires NoCrLf(s) && i < |s| && s[i] == '\n'
    ensures StripCr(s[..i]) == s[..i] && NoCrLf(s[i + 1..])
  {
    var tail := s[i + 1..];
    forall k | 0 < k < |tail| && tail[k] == '\n' ensures tail[k - 1] != '\r' {
      assert tail[k] == s[i + 1 + k] && tail[k - 1] == s[i + k];
    }
    if i > 0 {
      assert s[..i][i - 1] == s[i - 1];
    }
  }

  /** `lines` reads a line up to the first "\n", minus one "\r" before it, and
      goes on after it. */
  lemma LinesStep(head: string, rest: string)
    requires '\n' !in head
    ensures Lines(head + "\n" + rest) == [StripCr(head)] + Lines(rest)
  {
    IndexOfFirst(head, '\n', rest);
  }

  /** Text without a line feed is one line, kept whole: a "\r" at its end stays. */
  lemma LinesUnterminated(s: string)
    requires '\n' !in s && |s| > 0
    ensures Lines(s) == [s]
  {
  }

  /** A "\r\n" terminator ends a line like a bare "\n": neither character
      remains in the line. */
  lemma LinesOfCrLf(head: string, rest: string)
    requires '\n' !in head
    ensures Lines(head + "\r\n" + rest) == [head] + Lines(rest)
  {
    var line := head + "\r";
    assert '\n' !in line by {
      forall k | 0 <= k < |line| ensures line[k] != '\n' {
        if k < |head| {
          assert line[k] == head[k];
        }
      }
    }
    assert head + "\r\n" + rest == line + "\n" + rest;
    LinesStep(line, rest);
    assert StripCr(line) == head;
  }

  lemma JoinCons(first: string, rest: seq<string>, sep: string)
    requires |rest| > 0
    ensures Join([first] + rest, sep) == first + sep + Join(rest, sep)
  {
    assert ([first] + rest)[1..] == rest;
  }

  lemma ConcatAssoc(a: string, b: string, c: string)
    ensures (a + b) + c == a + (b + c)
  {
  }

  /** For text without "\r\n", `lines` loses only the final "\n": joining the
      lines and restoring it gives the text back. A carriage return anywhere
      else survives. */
  lemma {:induction false} LinesJoinRoundTrip(s: string)
    requires NoCrLf(s)
    ensures Join(Lines(s), "\n") + (if EndsWithNewline(s) then "\n" else "") == s
    decreases |s|
  {
    if |s| > 0 && IndexOf(s, '\n').Some? {
      var i := IndexOf(s, '\n').value;
      var head, rest := s[..i], s[i + 1..];
      NoCrLfPieces(s, i);
      assert s == head + "\n" + rest;
      assert Lines(s) == [head] + Lines(rest);
      if |rest| == 0 {
        assert Lines(s) == [head];
      } else {
        var suffix := if EndsWithNewline(s) then "\n" else "";
        LinesJoinRoundTrip(rest);
        JoinCons(head, Lines(rest), "\n");
        assert EndsWithNewline(s) == EndsWithNewline(rest);
        var joined := Join(Lines(rest), "\n");
        assert (head + "\n" + joined) + suffix == head + "\n" + (joined + suffix) by {
          ConcatAssoc(head + "\n", joined, suffix);
        }
      }
    }
  }
}

=== FILE: tools.dfy ===
/** The two tools the server exposes, with the file system turned into
    parameters: `read` is what `fs::read_to_string` returned, `writeError`
    whether `fs::write` failed, and the outcome records what would have been
    written. */
module Tools {
  import opened Wrappers
  import opened Strings
  import opened Numbers
  import opened Errors
  import opened Hashline
  import opened Applier

  /** `EditOperation`: an operation as the client sends it, all fields text. */
  datatype EditOperation = EditOperation(
    opType: string,
    anchor: string,
    endAnchor: Option<string>,
    content: Option<string>)

  // ---------------------------------------------------------------------------
  // Reading

  /** The footer up to the line count: a separator line and the format version. */
  const FooterStart: string := "\n---\nhashline_version: 1\ntotal_lines: "

  /** Between the line count and the digest. */
  const DigestLabel: string := "\nfile_hash: "

  /** The lines after the tagged view: format version, line count, digest. */
  function Footer(totalLines: nat, fileHash: string): string {
    FooterStart + NatToString(totalLines) + DigestLabel + fileHash + "\n"
  }

  /** What `read_text_file_impl` returns for content it could read. */
  function ReadOutput(content: string): string {
    TagContent(content) + Footer(|Lines(content)|, FileHash(content))
  }

  /** `read_text_file_impl`, given the outcome of reading the file. */
  function ReadTextFileImpl(read: Result<string, string>): (r: Result<string, Failure>)
    ensures read.Err? ==> r == Err(Io(read.error))
    ensures read.Ok? ==> r == Ok(ReadOutput(read.value))
  {
    var content :- match read case Ok(c) => Ok(c) case Err(m) => Err(Io(m));
    Ok(ReadOutput(content))
  }

  /** The shape of any view followed by a footer: the parts in order, the
      digest just before the final line feed, and the first character. */
  lemma FooterShape(view: string, totalLines: nat, fileHash: string)
    ensures var s := view + Footer(totalLines, fileHash);
      && s == view + FooterStart + NatToString(totalLines) + DigestLabel + fileHash + "\n"
      && |s| > |fileHash|
      && s[|s| - 1 - |fileHash|..|s| - 1] == fileHash
      && s[0] == (if |view| == 0 then '\n' else view[0])
  {
    var numeral := NatToString(totalLines);
    var middle := FooterStart + numeral + DigestLabel;
    var front := view + FooterStart + numeral + DigestLabel;
    assert Footer(totalLines, fileHash) == middle + fileHash + "\n";
    Regroup3(view, middle, fileHash, "\n");
    Regroup3(view, FooterStart, numeral, DigestLabel);
    assert view + middle == front;
    FieldBeforeLastLine(front, fileHash);
    assert middle[0] == '\n' by {
      ConcatAssoc(FooterStart, numeral, DigestLabel);
    }
    assert front[0] == (if |view| == 0 then '\n' else view[0]);
  }

  lemma Regroup3(a: string, b: string, c: string, d: string)
    ensures a + ((b + c) + d) == ((a + b) + c) + d
  {
  }

  lemma FieldBeforeLastLine(front: string, field: string)
    ensures var s := front + field + "\n";
      |s| > |field| && s[|s| - 1 - |field|..|s| - 1] == field && (|front| > 0 ==> s[0] == front[0])
  {
    var s := front + field + "\n";
    assert s[|front|..|front| + |field|] == field;
  }

  /** The read output is a tagged view holding one record per line of the
      content (its number, hash and text), followed by a footer whose line
      count reads back as the number of those records and whose last line
      carries the file digest. */
  lemma ReadOutputReports(content: string)
    ensures var out := ReadOutput(content);
      var lines := Lines(content);
      exists view, count ::
        && out == view + FooterStart + count + DigestLabel + FileHash(content) + "\n"
        && ParseTagged(view).Some?
        && |ParseTagged(view).value| == |lines|
        && (forall i :: 0 <= i < |lines| ==>
              ParseTagged(view).value[i] == TaggedLine(i + 1, HashLine(lines[i]), lines[i]))
        && ParseUsize(count) == Ok(|lines|)
  {
    var view, count := TagContent(content), NatToString(|Lines(content)|);
    TagContentRoundTrip(content);
    ParseFormatted(|Lines(content)|);
    FooterShape(view, |Lines(content)|, FileHash(content));
  }

  /** The digest sits just before the final line feed of the read output. */
  lemma DigestAtEnd(content: string)
    ensures var out := ReadOutput(content);
      |out| >= 7 && out[|out| - 7..|out| - 1] == FileHash(content)
  {
    FooterShape(TagContent(content), |Lines(content)|, FileHash(content));
  }

  // ---------------------------------------------------------------------------
  // Converting the client's operations

  /** The name the client uses for each operation type. */
  function OpTypeName(t: OperationType): string {
    match t
    case Replace => "replace"
    case InsertAfter => "insert_after"
    case InsertBefore => "insert_before"
    case Delete => "delete"
  }

  /** The operation type from its name: exactly the four names, nothing else. */
  function ParseOpType(s: string): (r: Result<OperationType, Failure>)
    ensures r.Ok? ==> OpTypeName(r.value) == s
    ensures r.Err? ==> r.error == InvalidOpType(s)
  {
    if s == "replace" then Ok(Replace)
    else if s == "insert_after" then Ok(InsertAfter)
    else if s == "insert_before" then Ok(InsertBefore)
    else if s == "delete" then Ok(Delete)
    else Err(InvalidOpType(s))
  }

  /** Every operation type is accepted under its name, so a string is
      accepted exactly when it is one of the four names. */
  lemma OpTypeRoundTrip(t: OperationType)
    ensures ParseOpType(OpTypeName(t)) == Ok(t)
  {
  }

  function ParseEndAnchor(s: Option<string>): (r: Result<Option<LineAnchor>, Failure>)
    ensures s.None? ==> r == Ok(None)
    ensures s.Some? && ParseAnchor(s.value).Err? ==> r == Err(ParseAnchor(s.value).error)
    ensures s.Some? && ParseAnchor(s.value).Ok? ==> r == Ok(Some(ParseAnchor(s.value).value))
  {
    match s
    case None => Ok(None)
    case Some(text) =>
      var anchor :- ParseAnchor(text);
      Ok(Some(anchor))
  }

  /** One turn of the conversion loop: the anchor, then the end anchor, then
      the operation type, each failure ending the edit. */
  function ConvertOp(op: EditOperation): (r: Result<HashlineOperation, Failure>)
    ensures ParseAnchor(op.anchor).Err? ==> r == Err(ParseAnchor(op.anchor).error)
    ensures ParseAnchor(op.anchor).Ok? && ParseEndAnchor(op.endAnchor).Err? ==>
      r == Err(ParseEndAnchor(op.endAnchor).error)
    ensures ParseAnchor(op.anchor).Ok? && ParseEndAnchor(op.endAnchor).Ok? && ParseOpType(op.opType).Err? ==>
      r == Err(InvalidOpType(op.opType))
    ensures r.Ok? ==>
      && OpTypeName(r.value.opType) == op.opType
      && r.value.anchor == ParseAnchor(op.anchor).value
      && r.value.endAnchor == ParseEndAnchor(op.endAnchor).value
      && r.value.endAnchor.Some? == op.endAnchor.Some?
      && r.value.content == op.content
  {
    var anchor :- ParseAnchor(op.anchor);
    var endAnchor :- ParseEndAnchor(op.endAnchor);
    var opType :- ParseOpType(op.opType);
    Ok(HashlineOperation(opType, anchor, endAnchor, op.content))
  }

  /** The conversion loop, in input order. */
  function ConvertAll(ops: seq<EditOperation>): (r: Result<seq<HashlineOperation>, Failure>)
    ensures r.Ok? <==> forall i :: 0 <= i < |ops| ==> ConvertOp(ops[i]).Ok?
    ensures r.Ok? ==>
      |r.value| == |ops| && forall i :: 0 <= i < |ops| ==> ConvertOp(ops[i]) == Ok(r.value[i])
  {
    MapAll(ops, ConvertOp)
  }

  // ---------------------------------------------------------------------------
  // Editing

  /** What an edit did: its result, and the content handed to `fs::write`
      if the edit got that far. */
  datatype EditOutcome = EditOutcome(result: Result<string, Failure>, written: Option<string>)

  /** `edit_text_file_impl`: read, compare digests, then convert, apply and
      write. Nothing is written unless the digest matches. */
  function EditTextFileImpl(
    path: string, fileHash: string, ops: seq<EditOperation>,
    read: Result<string, string>, writeError: Option<string>): (r: EditOutcome)
    ensures read.Err? ==> r == EditOutcome(Err(Io(read.error)), None)
    ensures read.Ok? && FileHash(read.value) != fileHash ==> r == EditOutcome(Err(Modified(path)), None)
    ensures read.Ok? && FileHash(read.value) == fileHash ==> r == EditChecked(path, read.value, ops, writeError)
  {
    match read
    case Err(m) => EditOutcome(Err(Io(m)), None)
    case Ok(current) =>
      if FileHash(current) != fileHash then EditOutcome(Err(Modified(path)), None)
      else EditChecked(path, current, ops, writeError)
  }

  /** The edit once the digest has matched: a conversion error stops it before
      anything is applied or written; otherwise the converted batch is applied
      to the content and the outcome committed. */
  function EditChecked(path: string, current: string, ops: seq<EditOperation>, writeError: Option<string>): (r: EditOutcome)
    ensures ConvertAll(ops).Err? ==> r == EditOutcome(Err(ConvertAll(ops).error), None)
    ensures ConvertAll(ops).Ok? ==> r == Commit(path, ApplyOperations(current, ConvertAll(ops).value), writeError)
  {
    match ConvertAll(ops)
    case Err(e) => EditOutcome(Err(e), None)
    case Ok(converted) => Commit(path, ApplyOperations(current, converted), writeError)
  }

  /** The end of the edit: write the new content if the operations applied,
      and report. */
  function Commit(path: string, applied: Result<string, Failure>, writeError: Option<string>): (r: EditOutcome)
    ensures r.written.Some? <==> applied.Ok?
    ensures applied.Ok? ==> r.written == Some(applied.value)
    ensures applied.Err? ==> r.result == Err(applied.error)
    ensures applied.Ok? && writeError.Some? ==> r.result == Err(Io(writeError.value))
    ensures r.result.Ok? <==> applied.Ok? && writeError.None?
    ensures r.result.Ok? ==> r.result.value == "Successfully edited " + path
  {
    match applied
    case Err(e) => EditOutcome(Err(e), None)
    case Ok(newContent) =>
      match writeError
      case Some(m) => EditOutcome(Err(Io(m)), Some(newContent))
      case None => EditOutcome(Ok("Successfully edited " + path), Some(newContent))
  }

  /** The file is written exactly when the digest matches and every operation
      converts and applies, and then with exactly what the applier produced;
      the edit reports success exactly when that write succeeds. */
  lemma EditWritesOnlyAppliedContent(
    path: string, fileHash: string, ops: seq<EditOperation>,
    read: Result<string, string>, writeError: Option<string>)
    ensures var r := EditTextFileImpl(path, fileHash, ops, read, writeError);
      r.written.Some? <==>
        && read.Ok? && FileHash(read.value) == fileHash
        && ConvertAll(ops).Ok? && ApplyOperations(read.value, ConvertAll(ops).value).Ok?
    ensures var r := EditTextFileImpl(path, fileHash, ops, read, writeError);
      r.written.Some? ==> r.written.value == ApplyOperations(read.value, ConvertAll(ops).value).value
    ensures var r := EditTextFileImpl(path, fileHash, ops, read, writeError);
      r.result == Ok("Successfully edited " + path) <==> r.written.Some? && writeError.None?
  {
    var r := EditTextFileImpl(path, fileHash, ops, read, writeError);
    if read.Ok? && FileHash(read.value) == fileHash && ConvertAll(ops).Ok? {
      var applied := ApplyOperations(read.value, ConvertAll(ops).value);
      assert r == Commit(path, applied, writeError);
    } else {
      assert r.written.None?;
      assert r.result.Err?;
    }
  }

  /** The first operation that does not convert ends the edit with its error,
      before anything is applied or written. */
  lemma ConversionFailureAborts(
    path: string, ops: seq<EditOperation>, content: string, writeError: Option<string>, k: nat)
    requires k < |ops| && ConvertOp(ops[k]).Err?
    requires forall j :: 0 <= j < k ==> ConvertOp(ops[j]).Ok?
    ensures EditTextFileImpl(path, FileHash(content), ops, Ok(content), writeError)
      == EditOutcome(Err(ConvertOp(ops[k]).error), None)
  {
    MapAllFailsAtFirst(ops, ConvertOp, k);
  }

  /** A digest copied from a read of the same content always passes the check,
      so the edit goes on to convert and apply the operations. */
  lemma ReadThenEdit(path: string, content: string, ops: seq<EditOperation>, writeError: Option<string>)
    ensures var out := ReadOutput(content);
      |out| >= 7
      && EditTextFileImpl(path, out[|out| - 7..|out| - 1], ops, Ok(content), writeError)
           == EditChecked(path, content, ops, writeError)
  {
    DigestAtEnd(content);
  }

  // ---------------------------------------------------------------------------
  // Replies

  /** What a tool call produces: text, or a panic that unwinds out of the call. */
  datatype Reply = Text(text: string) | Panicked

  /** The `match` in both tool wrappers: the output on success, otherwise
      "Error: " and the error's message. */
  function Respond(r: Result<string, Failure>): (reply: Reply)
    ensures r.Ok? ==> reply == Text(r.value)
    ensures r.Err? && r.error.Panic? <==> reply.Panicked?
    ensures r.Err? && !r.error.Panic? ==> reply == Text("Error: " + Message(r.error))
  {
    match r
    case Ok(s) => Text(s)
    case Err(e) => if e.Panic? then Panicked else Text("Error: " + Message(e))
  }

  /** `read_text_file`: never panics; the read output, or the I/O error's text
      after "Error: ". */
  function ReadTextFile(read: Result<string, string>): (r: Reply)
    ensures read.Ok? ==> r == Text(ReadOutput(read.value))
    ensures read.Err? ==> r == Text("Error: " + read.error)
  {
    Respond(ReadTextFileImpl(read))
  }

  /** `edit_text_file`: panics only when applying the batch does; a stale
      digest or a failed read is reported as text, and success names the path. */
  function EditTextFile(
    path: string, fileHash: string, ops: seq<EditOperation>,
    read: Result<string, string>, writeError: Option<string>): (r: Reply)
    ensures r.Panicked? <==> EditTextFileImpl(path, fileHash, ops, read, writeError).result == Err(Panic)
    ensures read.Err? ==> r == Text("Error: " + read.error)
    ensures read.Ok? && FileHash(read.value) != fileHash ==> r == Text("Error: " + Message(Modified(path)))
    ensures EditTextFileImpl(path, fileHash, ops, read, writeError).result.Ok? ==>
      r == Text("Successfully edited " + path)
  {
    Respond(EditTextFileImpl(path, fileHash, ops, read, writeError).result)
  }

  /** A read reply starts with "Error: " exactly when the file could not be
      read: a tagged view starts with the digit 1, an empty one with the
      footer's line feed. */
  lemma ReadReplyFlagsFailure(read: Result<string, string>)
    ensures ReadTextFile(read).Text?
    ensures "Error: " <= ReadTextFile(read).text <==> read.Err?
  {
    if read.Ok? {
      var c := read.value;
      var view := TagContent(c);
      FooterShape(view, |Lines(c)|, FileHash(c));
      var out := ReadOutput(c);
      assert out[0] == (if |view| == 0 then '\n' else '1');
      assert "Error: "[0] == 'E';
    } else {
      var text := "Error: " + read.error;
      assert text[..7] == "Error: ";
    }
  }

  /** An edit reply starts with "Error: " exactly when the edit failed
      without a panic. */
  lemma EditReplyFlagsFailure(
    path: string, fileHash: string, ops: seq<EditOperation>,
    read: Result<string, string>, writeError: Option<string>)
    ensures var r := EditTextFileImpl(path, fileHash, ops, read, writeError).result;
      EditTextFile(path, fileHash, ops, read, writeError).Text? ==>
        ("Error: " <= EditTextFile(path, fileHash, ops, read, writeError).text <==> r.Err?)
  {
    var r := EditTextFileImpl(path, fileHash, ops, read, writeError).result;
    if r.Ok? {
      assert r.value[0] == 'S';
    }
  }
}

=== FILE: wrappers.dfy ===
/** Failure-compatible wrappers: the model's stand-ins for Rust's `Option` and
    `anyhow::Result`. */
module Wrappers {

  datatype Option<+T> = None | Some(value: T)

  datatype Result<+T, +E> = Ok(value: T) | Err(error: E) {

    predicate IsFailure() {
      Err?
    }

    function PropagateFailure<U>(): Result<U, E>
      requires Err?
    {
      Err(error)
    }

    function Extract(): T
      requires Ok?
    {
      value
    }
  }

  /** Applies `f` to each element in order, collecting the results; the first
      error stops the walk and is the result (a loop of `?` calls). */
  function MapAll<A, B, E>(xs: seq<A>, f: A -> Result<B, E>): (r: Result<seq<B>, E>)
    ensures r.Ok? <==> forall i :: 0 <= i < |xs| ==> f(xs[i]).Ok?
    ensures r.Ok? ==> |r.value| == |xs| && forall i :: 0 <= i < |xs| ==> f(xs[i]) == Ok(r.value[i])
    decreases |xs|
  {
    if |xs| == 0 then Ok([])
    else match f(xs[0])
      case Err(e) => Err(e)
      case Ok(head) =>
        match MapAll(xs[1..], f)
        case Err(e) =>
          assert exists i :: 0 <= i < |xs| && f(xs[i]).Err? by {
            var j :| 0 <= j < |xs[1..]| && f(xs[1..][j]).Err?;
            assert xs[1..][j] == xs[j + 1];
          }
          Err(e)
        case Ok(tail) =>
          var all := [head] + tail;
          assert forall i :: 0 <= i < |xs| ==> f(xs[i]) == Ok(all[i]) by {
            forall i | 1 <= i < |xs| ensures f(xs[i]) == Ok(all[i]) {
              assert xs[i] == xs[1..][i - 1] && all[i] == tail[i - 1];
            }
          }
          Ok(all)
  }

  /** The walk fails with the error of the first element `f` rejects. */
  lemma {:induction false} MapAllFailsAtFirst<A, B, E>(xs: seq<A>, f: A -> Result<B, E>, k: nat)
    requires k < |xs| && f(xs[k]).Err?
    requires forall j :: 0 <= j < k ==> f(xs[j]).Ok?
    ensures MapAll(xs, f) == Err(f(xs[k]).error)
    decreases |xs|
  {
    if k > 0 {
      var tail := xs[1..];
      assert tail[k - 1] == xs[k];
      forall j | 0 <= j < k - 1 ensures f(tail[j]).Ok? {
        assert tail[j] == xs[j + 1];
      }
      MapAllFailsAtFirst(tail, f, k - 1);
    }
  }

  lemma RemoveAt<A>(s: seq<A>, j: nat)
    requires j < |s|
    ensures multiset(s[..j] + s[j + 1..]) == multiset(s) - multiset{s[j]}
  {
    assert s == s[..j] + [s[j]] + s[j + 1..];
  }

  lemma RemoveAtIndex<A>(s: seq<A>, j: nat, i: nat)
    requires j < |s| && i < |s| - 1
    ensures (s[..j] + s[j + 1..])[i] == if i < j then s[i] else s[i + 1]
  {
  }

  /** Dropping the last element of one side and an equal element of the other
      keeps two multisets equal. */
  lemma DropMatching<A>(a: seq<A>, b: seq<A>, j: nat)
    requires multiset(a) == multiset(b) && |a| > 0 && j < |b| && b[j] == a[|a| - 1]
    ensures multiset(b[..j] + b[j + 1..]) == multiset(a[..|a| - 1])
  {
    assert a == a[..|a| - 1] + [a[|a| - 1]];
    RemoveAt(b, j);
  }

  /** Adding the same element back to both sides keeps two multisets equal. */
  lemma PutBack<A>(ra: seq<A>, rb: seq<A>, j: nat)
    requires |ra| > 0 && j < |rb| && ra[|ra| - 1] == rb[j]
    requires multiset(ra[..|ra| - 1]) == multiset(rb[..j] + rb[j + 1..])
    ensures multiset(ra) == multiset(rb)
  {
    assert ra == ra[..|ra| - 1] + [ra[|ra| - 1]];
    RemoveAt(rb, j);
    assert rb[j] in multiset(rb);
  }

  /** Mapping two orderings of the same elements gives two orderings of the
      same results. */
  lemma {:induction false} MapPermutation<A, B, E>(
    a: seq<A>, b: seq<A>, f: A -> Result<B, E>, ra: seq<B>, rb: seq<B>)
    requires multiset(a) == multiset(b)
    requires |ra| == |a| && forall i :: 0 <= i < |a| ==> f(a[i]) == Ok(ra[i])
    requires |rb| == |b| && forall i :: 0 <= i < |b| ==> f(b[i]) == Ok(rb[i])
    ensures multiset(ra) == multiset(rb)
    decreases |a|
  {
    if |a| == 0 {
      assert |multiset(b)| == |b|;
    } else {
      var n := |a| - 1;
      var x := a[n];
      assert x in multiset(b);
      var j :| 0 <= j < |b| && b[j] == x;
      var a', ra' := a[..n], ra[..n];
      var b', rb' := b[..j] + b[j + 1..], rb[..j] + rb[j + 1..];
      assert |rb'| == |b'| && forall i :: 0 <= i < |b'| ==> f(b'[i]) == Ok(rb'[i]) by {
        forall i | 0 <= i < |b'| ensures f(b'[i]) == Ok(rb'[i]) {
          RemoveAtIndex(b, j, i);
          RemoveAtIndex(rb, j, i);
        }
      }
      assert |ra'| == |a'| && forall i :: 0 <= i < |a'| ==> f(a'[i]) == Ok(ra'[i]) by {
        forall i | 0 <= i < |a'| ensures f(a'[i]) == Ok(ra'[i]) {
          assert a'[i] == a[i] && ra'[i] == ra[i];
        }
      }
      DropMatching(a, b, j);
      MapPermutation(a', b', f, ra', rb');
      assert ra[n] == rb[j] by {
        assert f(a[n]) == Ok(ra[n]) && f(b[j]) == Ok(rb[j]);
      }
      PutBack(ra, rb, j);
    }
  }
}
